=== FILE: README.md ===
# Location obfuscation engine — a Dafny model

This project models the location-obfuscation engine of an Android location service.
The engine turns a precise fix into a coarse one, using one of two strategies behind one
interface:

- **DistanceFudger** (directional offset). It moves a fix by the instance's configured
  distance in kilometres, scaled by a factor, in a compass direction.
  - Direction and factor are static state shared by every instance. They are redrawn
    once per one-minute window.
  - The model keeps them in one explicit `Statics` record that every call takes and
    returns.
- **GeoDPFudger** (geo-indistinguishability). It adds planar Laplace noise calibrated by
  ε = 2 / accuracy, where accuracy is floored at 200 m.
  - Each instance keeps an identity-keyed memo: the last (fine, coarse) pair for single
    fixes and for batches.
  - An hourly timer clears that memo.

Both strategies copy the fix and strip bearing, speed, altitude and extras. Both clamp
the latitude to ±`MAX_LATITUDE`, wrap the longitude into [-180, 180) with Java's
truncating `%`, and never report an accuracy tighter than the input's.

Modelling choices:

- Coordinates and accuracies are `real`. The monotonic clock is an `int`, passed to
  every call as `now`. A batch call takes one reading per element, because the source
  reads the clock inside each single-fix call.
- `sin`, `cos` and `ln` are uninterpreted. They arrive as a `MathLib` record of
  functions. The only facts assumed about them are stated as premises:
  - cosine is positive strictly between -90° and 90°;
  - the logarithm is non-positive on (0, 1].
- The random generator is a sequence of upcoming `nextDouble()` values (`Env.draws`).
  Each call consumes draws exactly where the source calls `nextDouble()`.
  - `DistanceFudger` draws from the static `sRandom` shared by all instances
    (DistanceFudger.java:81, 211-212). The `Random` its constructor takes (lines 40, 96)
    is stored but never read, so one stream of draws stands for `sRandom`.
  - `GeoDPFudger` draws from the generator it was constructed with.
- Java object identity is modelled by addresses.
  - A `Location` is an address plus contents; a `LocationResult` is an address plus
    its elements.
  - `Env.nextAddr` is the allocator: `new` returns it and moves past it.
  - The memo compares addresses, as Java's `==` does.
- All operations are pure functions. Each takes the state it reads and returns the state
  it leaves.

Files: `geo.dfy` (module `Geo`, the shared geodesy helpers), `fixes.dfy` (module `Fixes`,
records and resources), `distance_fudger.dfy`, `geo_dp_fudger.dfy`, and `obfuscation.dfy`
(module `Obfuscation`, the interface as a closed choice of the two strategies).

Behaviour of the code that a reader might not expect:

- `DistanceFudger` draws a fresh uniform direction every window. The previous direction
  plays no part, and `DIRECTION_JITTER_DEGREES` (DistanceFudger.java:49) is never read
  (`ReseedForgetsPreviousOffsets`, `ReseedFollowsDraws`).
- `setDistanceKm` does not reseed the shared offsets (DistanceFudger.java:106-117,
  `SetDistanceKeepsSharedOffsets`).
- `GeoDPFudger` draws new noise on every call that misses its memo. Its hourly timer
  holds no noise vector; it only clears the memo (`CreateCoarse`, `UpdateNoise`).
- `GeoDPFudger` reports `max(calibrated, original)` accuracy (GeoDPFudger.java:140,
  `Perturb`).
- `GeoDPFudger` converts the longitude offset at the clamped pre-noise latitude
  (GeoDPFudger.java:129). `DistanceFudger` converts it at the post-offset latitude
  (`PerturbReadBack`, `ObfuscateReadBack`).
- A memo hit on the cached coarse object returns that very object
  (GeoDPFudger.java:98-100). If the caller has written into it, the answer carries those
  writes and need not be stripped or in range. The noise strategy's "coarse" guarantees
  are therefore stated for callers that have not written into coarse objects they
  received.

## Model

| member | source | states |
|---|---|---|
| Geo.ClampLatitude | android/frameworks/base/services/core/java/com/android/server/location/fudger/DistanceFudger.java:232-236 | The result lies in [-MAX_LATITUDE, MAX_LATITUDE] and is the point of that band nearest the input. The copy at GeoDPFudger.java:168-172 is identical. |
| Geo.ClampLatitudeKeepsBand | android/frameworks/base/services/core/java/com/android/server/location/fudger/DistanceFudger.java:232-236 | A latitude already inside the band is returned unchanged. |
| Geo.ClampedLatitudeOffPoles | android/frameworks/base/services/core/java/com/android/server/location/fudger/GeoDPFudger.java:28-29 | Any latitude in the clamp band lies strictly between -π/2 and π/2 in radians, where a lawful cosine is positive. So the unfloored longitude divisor is never zero after clamping. |
| Geo.JavaRem360 | android/frameworks/base/services/core/java/com/android/server/location/fudger/DistanceFudger.java:239 | Java's `lon %= 360.0`: the remainder lies in (-360, 360), keeps the sign of the dividend, and names the same meridian. |
| Geo.WrapLongitude | android/frameworks/base/services/core/java/com/android/server/location/fudger/DistanceFudger.java:238-243 | The result lies in [-180, 180) and differs from the input by a whole number of turns. The copy at GeoDPFudger.java:174-179 is identical. |
| Geo.WrapLongitudeIsCanonical | android/frameworks/base/services/core/java/com/android/server/location/fudger/DistanceFudger.java:238-243 | For every real input, the remainder-and-shift wrap equals an independent floor-based definition of the canonical longitude. |
| Geo.WrapLongitudeKeepsCanonical | android/frameworks/base/services/core/java/com/android/server/location/fudger/DistanceFudger.java:238-243 | A longitude already in [-180, 180) is unchanged, so wrapping is idempotent. |
| Geo.MetersToDegreesLatitude | android/frameworks/base/services/core/java/com/android/server/location/fudger/DistanceFudger.java:245-247 | Converting the degrees back at 111 000 m per degree gives the input distance. |
| Geo.FloorCos | android/frameworks/base/services/core/java/com/android/server/location/fudger/DistanceFudger.java:254-256 | The floored cosine has magnitude at least 1e-6. It keeps the cosine's sign, with zero counted as positive. A cosine already at least 1e-6 in magnitude is unchanged, and a smaller one becomes exactly ±1e-6. |
| Geo.FlooredMetersToDegreesLongitude | android/frameworks/base/services/core/java/com/android/server/location/fudger/DistanceFudger.java:253-258 | The divisor is never zero. Converting back with the same floored cosine gives the input distance. |
| Geo.MetersToDegreesLongitude | android/frameworks/base/services/core/java/com/android/server/location/fudger/GeoDPFudger.java:185-188 | There is no floor, so the conversion is defined only where the cosine is non-zero. Converting back gives the input distance. |
| DistanceFudger.CoerceDistanceKm | android/frameworks/base/services/core/java/com/android/server/location/fudger/DistanceFudger.java:97-101 | A positive distance is kept and any other becomes 10, so the stored distance is always at least 1. |
| DistanceFudger.New | android/frameworks/base/services/core/java/com/android/server/location/fudger/DistanceFudger.java:94-104 | The constructor stores the distance: the argument when positive, 10 otherwise. Inside an open window the shared offsets and draws are left as they are. The instance's own timestamp then stays 0. Otherwise one reseed takes two draws and schedules the next at now + 60000. The direction divided by 360 reads back as the first draw, the factor's deviation divided by 5% as 2·(second draw) − 1, and the instance is stamped with now. Either way the window is open at construction time, and valid shared offsets stay valid. |
| DistanceFudger.NonPositiveDistanceActsAsDefault | android/frameworks/base/services/core/java/com/android/server/location/fudger/DistanceFudger.java:97-101 | Constructing with a non-positive distance is indistinguishable from constructing with 10. |
| DistanceFudger.SetDistanceKm | android/frameworks/base/services/core/java/com/android/server/location/fudger/DistanceFudger.java:106-117 | Stores the argument when positive and 10 otherwise, and stamps the diagnostic time. It takes no shared state, so it cannot reseed. |
| DistanceFudger.SetDistanceKeepsSharedOffsets | android/frameworks/base/services/core/java/com/android/server/location/fudger/DistanceFudger.java:106-117 | After a distance change within the window, the next call reads the unchanged shared direction and factor. Only the offset length follows the new distance. |
| DistanceFudger.ResetStaticOffsets | android/frameworks/base/services/core/java/com/android/server/location/fudger/DistanceFudger.java:268-274 | The reset offsets are valid, and their schedule makes the next call at any non-negative time reseed. |
| DistanceFudger.UpdateDirectionDistance | android/frameworks/base/services/core/java/com/android/server/location/fudger/DistanceFudger.java:192-229 | Before the scheduled time, direction, factor, schedule, instance and draws are unchanged. At or after it, the refresh consumes two draws. The direction divided by 360 reads back as the first draw, and the factor's deviation divided by 5% reads back as 2·(second draw) − 1. Direction lands in [0, 360) and factor in [0.95, 1.05). It schedules the next reseed at now + 60000 and stamps the instance. Afterwards the window is always open at now. |
| DistanceFudger.RefreshIdempotentWithinWindow | android/frameworks/base/services/core/java/com/android/server/location/fudger/DistanceFudger.java:199-216 | A second refresh at the same clock reading is a no-op. |
| DistanceFudger.ReseedForgetsPreviousOffsets | android/frameworks/base/services/core/java/com/android/server/location/fudger/DistanceFudger.java:207-216 | A reseed does not depend on the previous direction or factor. |
| DistanceFudger.ReseedFollowsDraws | android/frameworks/base/services/core/java/com/android/server/location/fudger/DistanceFudger.java:211-213 | Two reseeds agree on the direction exactly when their first draws agree, and on the factor exactly when their second draws agree. |
| DistanceFudger.RefreshAll | android/frameworks/base/services/core/java/com/android/server/location/fudger/DistanceFudger.java:192-229 | The refresh half of a run of createCoarse calls, one per clock reading. It uses at most two draws per call and never touches the allocator or the distance. While every reading is before the schedule nothing changes. Afterwards the window is open at the last reading. |
| DistanceFudger.RefreshConsumesFromFront | android/frameworks/base/services/core/java/com/android/server/location/fudger/DistanceFudger.java:211-212 | A run of refreshes consumes draws from the front only: what remains is a suffix of the starting draws. |
| DistanceFudger.AtMostOneReseedPerWindow | android/frameworks/base/services/core/java/com/android/server/location/fudger/DistanceFudger.java:199-216 | Over readings that never go backwards and span less than one interval, the shared offsets are reseeded at most once. They are reseeded exactly once when the first reading is at or past the schedule. |
| DistanceFudger.OffsetAtLeast950 | android/frameworks/base/services/core/java/com/android/server/location/fudger/DistanceFudger.java:159 | The offset km·1000·factor is at least 950 m. |
| DistanceFudger.Obfuscate | android/frameworks/base/services/core/java/com/android/server/location/fudger/DistanceFudger.java:140-175 | The result is a coarse version of the input. It keeps provider and both timestamps and carries no bearing, speed, altitude or extras. Its latitude is in the clamp band and its longitude in [-180, 180). It never reports a tighter accuracy than the input. |
| DistanceFudger.ObfuscateReadBack | android/frameworks/base/services/core/java/com/android/server/location/fudger/DistanceFudger.java:156-175 | The reported accuracy is max(offset, original accuracy), and the offset is positive. When no clamp intervenes, the latitude moved by exactly the north component. The longitude lands on the meridian of the input moved by an amount that converts back to the east component at the result's (post-offset) latitude. |
| DistanceFudger.CreateCoarse | android/frameworks/base/services/core/java/com/android/server/location/fudger/DistanceFudger.java:128-185 | The result is a new object, never the input. It is a coarse version of the input, computed by the transform with the offsets updateDirectionDistance leaves at now. The shared offsets, instance and draws afterwards are exactly those updateDirectionDistance leaves; before the schedule nothing shared changes. |
| DistanceFudger.MapCoarse | android/frameworks/base/services/core/java/com/android/server/location/fudger/DistanceFudger.java:124-126 | Maps the single-fix form over the list in order. The result has the input's length. Element i is a coarse version of input element i and is a new object at its own address. The shared offsets, instance and draws afterwards are exactly those the refresh run over the clock readings (`RefreshAll`) leaves. |
| DistanceFudger.MapCoarseInWindows | android/frameworks/base/services/core/java/com/android/server/location/fudger/DistanceFudger.java:124-131 | Element i is input element i transformed with the shared offsets of window i (`Windows`), the offsets in force when the single-fix call for element i reads the clock. |
| DistanceFudger.WindowsAreRefreshPrefixes | android/frameworks/base/services/core/java/com/android/server/location/fudger/DistanceFudger.java:192-229 | Window i is exactly the shared offsets that the refresh run over clock readings 0 to i leaves, so each element sees the refreshes of the elements before it and its own. |
| DistanceFudger.CreateCoarseBatch | android/frameworks/base/services/core/java/com/android/server/location/fudger/DistanceFudger.java:123-126 | The result is a new object holding distinct new elements, in input order and of input length. Element i is a coarse version of input element i. The shared offsets, instance and draws afterwards are those the refresh run over the readings leaves. So they are unchanged while every reading is before the schedule, and the window is open at the last reading. Element i is input element i transformed with the shared offsets that the refresh run over readings 0 to i leaves. |
| DistanceFudger.FixedClockSharesOneWindow | android/frameworks/base/services/core/java/com/android/server/location/fudger/DistanceFudger.java:124-131 | With one clock reading for the whole batch, the batch is one refresh decision followed by a plain map. Every element uses the same direction and factor. |
| DistanceFudger.TenKilometresEastAtEquator | android/frameworks/base/services/core/java/com/android/server/location/fudger/DistanceFudger.java:156-175 | At 10 km, 90° and factor 1, a fix at (0, 0) moves to (0, 10000/111000) and reports 10000 m. This assumes sin 90° = 1 and cos 90° = 0. |
| GeoDpFudger.New | android/frameworks/base/services/core/java/com/android/server/location/fudger/GeoDPFudger.java:57-64 | The stored accuracy is max(argument, 200). ε is 2 / accuracy, hence 0 < ε ≤ 0.01. The timer is set to now + 3600000 and the memo is empty. |
| GeoDpFudger.ResetNoise | android/frameworks/base/services/core/java/com/android/server/location/fudger/GeoDPFudger.java:66-71 | Sets the timer to now + 3600000. Everything else, the memo included, is unchanged and stays valid. |
| GeoDpFudger.UpdateNoise | android/frameworks/base/services/core/java/com/android/server/location/fudger/GeoDPFudger.java:153-164 | Before expiry it does nothing. At or after expiry it sets the timer to now + interval and empties all four memo slots. Calibration is kept, and a coarse cached batch stays coarse. |
| GeoDpFudger.UpdateNoiseIdempotent | android/frameworks/base/services/core/java/com/android/server/location/fudger/GeoDPFudger.java:153-164 | A second timer check at the same reading is a no-op. |
| GeoDpFudger.NoiseRadius | android/frameworks/base/services/core/java/com/android/server/location/fudger/GeoDPFudger.java:119-122 | For draws in (0, 1), the radius -ln(u·v)/ε is non-negative under a lawful logarithm, and radius·ε = -ln(u·v). |
| GeoDpFudger.NoiseRadiusScalesWithAccuracy | android/frameworks/base/services/core/java/com/android/server/location/fudger/GeoDPFudger.java:60-61 | With ε = 2 / accuracy, the radius is -ln(u·v)·accuracy/2, proportional to the calibrated accuracy. |
| GeoDpFudger.Perturb | android/frameworks/base/services/core/java/com/android/server/location/fudger/GeoDPFudger.java:107-140 | The result is a coarse version of the input, stripped and with canonical coordinates. Its accuracy is at least the calibrated accuracy (hence at least 200) and at least the original, and equals one of them. |
| GeoDpFudger.PerturbReadBack | android/frameworks/base/services/core/java/com/android/server/location/fudger/GeoDPFudger.java:115-136 | The cosine at the clamped input latitude is positive, so the conversion is defined. When no clamp intervenes, the latitude moved by exactly the north noise. The longitude lands on the meridian of the input moved by an amount that converts back to the east noise at the clamped pre-noise latitude. |
| GeoDpFudger.CreateCoarse | android/frameworks/base/services/core/java/com/android/server/location/fudger/GeoDPFudger.java:97-147 | A hit on the cached coarse object returns the input itself, with whatever the caller wrote into it. A hit on the cached fine object returns the cached coarse object. Either hit changes nothing and reads neither the clock nor the draws, even after the timer expired. A miss runs the timer check (`UpdateNoise`), consumes three draws and returns a new object with fresh noise. That object becomes the cached coarse one, with the input as the cached fine one. The result is stripped, in range and at least the calibrated accuracy unless a mutated coarse object was handed back. It is a coarse version of the input unless a mutated cached object was passed in. |
| GeoDpFudger.CoarseningTwiceReturnsSameObject | android/frameworks/base/services/core/java/com/android/server/location/fudger/GeoDPFudger.java:98-101 | Coarsening the result again, at any later time, returns the same object and changes nothing. |
| GeoDpFudger.MapCoarse | android/frameworks/base/services/core/java/com/android/server/location/fudger/GeoDPFudger.java:85 | Maps the single-fix form in order, threading the memo, timer and draws through the elements. The result has the input's length. Every element is coarse unless the batch holds a cached coarse object the caller wrote into. For an unmutated, consistent batch, element i is a coarse version of input element i. |
| GeoDpFudger.MapCoarseCachesLast | android/frameworks/base/services/core/java/com/android/server/location/fudger/GeoDPFudger.java:85-88 | After a non-empty batch, the single-fix memo's coarse slot holds the last element of the result, as after a single call on the last input. It holds that very element unless the batch passed in a cached coarse object the caller wrote into. |
| GeoDpFudger.MapCoarseBeforeTimer | android/frameworks/base/services/core/java/com/android/server/location/fudger/GeoDPFudger.java:153-164 | While every clock reading is before the timer, the batch leaves the timer and both batch memo slots as they were. |
| GeoDpFudger.MissesDrawInOrder | android/frameworks/base/services/core/java/com/android/server/location/fudger/GeoDPFudger.java:105-146 | For a batch of distinct objects that all miss the memo, element i is input element i perturbed with draws 3i, 3i+1 and 3i+2, exactly as a single call would perturb it. The batch consumes exactly 3 draws per element, from the front, and allocates one object per element. |
| GeoDpFudger.CreateCoarseBatch | android/frameworks/base/services/core/java/com/android/server/location/fudger/GeoDPFudger.java:77-91 | A hit on the cached coarse batch returns the input itself. A hit on the cached fine batch returns the cached coarse batch. Either hit changes nothing. A miss maps element-wise, preserving order and length, into a new result object and caches the (fine, coarse) pair. Every element is coarse, and the cached batch stays coarse, when the cached batch was coarse and no mutated coarse object or batch is passed in. |
| GeoDpFudger.BatchMissFollowsSingleFixes | android/frameworks/base/services/core/java/com/android/server/location/fudger/GeoDPFudger.java:77-91 | On a batch miss, the single-fix memo afterwards holds the last coarse element. While every reading is before the timer, the timer is not restarted. When every element is a distinct object that misses the memo, element i is input element i perturbed with draws 3i, 3i+1 and 3i+2, and exactly 3 draws per element are consumed. The result object is allocated right after its elements. |
| GeoDpFudger.CoarseningBatchTwiceReturnsSameObject | android/frameworks/base/services/core/java/com/android/server/location/fudger/GeoDPFudger.java:79-82 | Coarsening the coarse batch again returns the same object and changes nothing. |
| Obfuscation.CreateCoarse | android/frameworks/base/services/core/java/com/android/server/location/fudger/LocationObfuscationInterface.java:19 | Whichever strategy answers, the result is stripped with canonical coordinates unless a mutated coarse object is handed back. It is a coarse version of the input whenever it is computed from it. Only the distance strategy touches the shared offsets. |
| Obfuscation.CreateCoarseBatch | android/frameworks/base/services/core/java/com/android/server/location/fudger/LocationObfuscationInterface.java:27 | Every element of the result is coarse unless mutated cached coarse objects are handed back. When the result is computed from the input, it has the input's length and element i is a coarse version of input element i. |

## Left out

- Concurrency (`sLock`, `synchronized`, `volatile`, `@GuardedBy`): the model is a sequence of calls, each seeing the state the previous one left.
- Logging and the wall-clock reads used only for log messages.
- `SecureRandom` and `Clock`: replaced by the `draws` sequence and the `now` arguments. Uniformity and the statistical privacy guarantee of the noise are not stated.
- Floating point: IEEE rounding, the `(float)` casts of accuracies, NaN, infinities and signed zero. Values are reals and `sin`/`cos`/`ln` are uninterpreted, so closeness checks such as "10 km east ≈ 0.09°" are stated only under assumed trigonometric values.
- The 64-bit `long` clock: `now + UPDATE_INTERVAL_MS` and `now + NOISE_UPDATE_INTERVAL_MS` are not wrapped, because a monotonic millisecond clock does not get near 2^63.
- `getDistanceKm` is a plain field read; `setStaticRandomForTest` does nothing.
- `DIRECTION_JITTER_DEGREES` is declared in the source but never read, so it has no counterpart.
- `LocationResult.map` and the `Location` copy constructor are platform code and are not part of this model. `map` is modelled as building a new result of the mapped elements, and the copy as a record copy. `Location` keeps only provider, two timestamps, position, accuracy, bearing, speed, altitude and extras.
- The Settings screens and their persistence of the configured distance are not part of this model.
- GeoDpFudger.CreateCoarse: requires the two radius draws of each group of three (u and v) to be non-zero. `nextDouble()` can return 0.0, and then `-Math.log(0)` is infinite and the source produces an infinite radius and a NaN longitude. Reals cannot represent that outcome. The angle draw may be 0.
- GeoDpFudger.NoiseRadius: requires both draws to be non-zero, for the same reason.
- GeoDpFudger.Perturb: requires both radius draws to be non-zero, for the same reason.
- GeoDpFudger.PerturbReadBack: requires both radius draws to be non-zero, for the same reason.
- GeoDpFudger.MapCoarse: requires the radius draws of each group of three to be non-zero, for the same reason.
- GeoDpFudger.CreateCoarseBatch: requires the radius draws of each group of three to be non-zero, for the same reason.
- Obfuscation.CreateCoarse: requires, for the noise strategy only, the radius draws of each group of three to be non-zero, for the same reason. The distance strategy takes any draw in [0, 1).
- Obfuscation.CreateCoarseBatch: requires, for the noise strategy only, the radius draws of each group of three to be non-zero, for the same reason.
- Geo.MetersToDegreesLongitude: requires a non-zero cosine. At a zero cosine the source divides by zero. That cannot happen on the path from `createCoarse`, which clamps the latitude first (`Geo.ClampedLatitudeOffPoles`).
- The element-wise "coarse version of the input" guarantee of the noise strategy is stated only for inputs the caller has not mutated since handing them over. Java's `Location` is mutable and the memo is keyed by identity, so a mutated fine object is answered with the result of its old contents.
- GeoDpFudger.CreateCoarse: a hit through the cached fine object returns the coarse object as it was cached. In Java, if the caller has since written into that coarse object (without passing it back in), the writes show. The model has no heap, so it sees the current contents only of the object passed in.
- GeoDpFudger.CreateCoarseBatch: for the same reason, a hit through the cached fine batch returns the cached coarse batch as it was cached. Writes the caller made to its elements without passing the batch back in are not seen.

=== FILE: distance_fudger.dfy ===
/** The directional-offset strategy. Every instance displaces a fix by its own base
    distance, scaled by a factor and pointed in a direction that all instances share for
    the current one-minute window (the source keeps these in static fields behind a
    process-wide lock; here they are one explicit Statics record threaded through the
    calls). Each window draws a fresh uniform direction: the previous direction plays no
    part. */
module DistanceFudger {
  import opened Geo
  import opened Fixes

  /** How long one sampled direction and factor stay in force: one minute. */
  const UPDATE_INTERVAL_MS: int := 60 * 1000

  /** The factor varies the base distance by up to five percent either way. */
  const VARIATION_PERCENT: real := 0.05

  /** What a non-positive configured distance is replaced by. */
  const DEFAULT_DISTANCE_KM: int := 10

  /** A Java int. */
  type Int32 = x: int | -0x8000_0000 <= x < 0x8000_0000

  /** The static fields shared by every instance: direction in compass degrees
      (0 north, 90 east), distance factor, and the monotonic time of the next reseed. */
  datatype Statics = Statics(directionDeg: real, distanceFactor: real, nextUpdateMs: int)

  /** Values any reseed produces, and the initial values satisfy too. */
  predicate StaticsValid(s: Statics) {
    && 0.0 <= s.directionDeg < 360.0
    && 1.0 - VARIATION_PERCENT <= s.distanceFactor < 1.0 + VARIATION_PERCENT
  }

  /** resetStaticOffsetsForTest (and the static initialisers): valid offsets, and a
      schedule that makes the next call at any non-negative time reseed. */
  function ResetStaticOffsets(): (s: Statics)
    ensures StaticsValid(s)
    ensures s.nextUpdateMs <= 0
  {
    Statics(0.0, 1.0, 0)
  }

  /** The per-instance fields: the configured distance and a diagnostic timestamp. */
  datatype Fudger = Fudger(distanceKm: Int32, lastUpdateMs: int)

  /** A configured distance is kept when positive and replaced by the default otherwise,
      so a stored distance is always at least one kilometre. */
  function CoerceDistanceKm(km: Int32): (r: Int32)
    ensures r >= 1
    ensures km > 0 ==> r == km
    ensures km <= 0 ==> r == DEFAULT_DISTANCE_KM
  {
    if km > 0 then km else DEFAULT_DISTANCE_KM
  }

  /** The shared offsets, the instance and the unconsumed resources after a step. */
  datatype Window = Window(statics: Statics, fudger: Fudger, env: Env)

  /** updateDirectionDistance: before the scheduled time nothing changes; from then on it
      takes two draws, sets a direction in [0, 360) and a factor in [0.95, 1.05), and
      schedules the next reseed one interval after now. Either way the window is open at
      now when it returns. */
  function UpdateDirectionDistance(f: Fudger, s: Statics, now: int, env: Env): (w: Window)
    requires UnitDraws(env.draws)
    requires now >= s.nextUpdateMs ==> |env.draws| >= 2
    ensures now < s.nextUpdateMs ==> w == Window(s, f, env)
    ensures now >= s.nextUpdateMs ==>
              && StaticsValid(w.statics)
              && w.statics.nextUpdateMs == now + UPDATE_INTERVAL_MS
              && w.fudger == f.(lastUpdateMs := now)
              && w.env == env.(draws := env.draws[2..])
    ensures now >= s.nextUpdateMs ==>
              && w.statics.directionDeg / 360.0 == env.draws[0]
              && (w.statics.distanceFactor - 1.0) / VARIATION_PERCENT == 2.0 * env.draws[1] - 1.0
    ensures StaticsValid(s) ==> StaticsValid(w.statics)
    ensures now < w.statics.nextUpdateMs
    ensures UnitDraws(w.env.draws)
  {
    if now < s.nextUpdateMs then
      Window(s, f, env)
    else
      var direction := env.draws[0] * 360.0;
      var factor := 1.0 + (env.draws[1] * 2.0 - 1.0) * VARIATION_PERCENT;
      Window(Statics(direction, factor, now + UPDATE_INTERVAL_MS),
             f.(lastUpdateMs := now),
             env.(draws := env.draws[2..]))
  }

  /** A second refresh at the same clock reading changes nothing. */
  lemma RefreshIdempotentWithinWindow(f: Fudger, s: Statics, now: int, env: Env)
    requires UnitDraws(env.draws)
    requires now >= s.nextUpdateMs ==> |env.draws| >= 2
    ensures var w := UpdateDirectionDistance(f, s, now, env);
            UpdateDirectionDistance(w.fudger, w.statics, now, w.env) == w
  {
  }

  /** A reseed does not depend on the previous direction or factor: it is a fresh draw,
      not a walk from the old direction. */
  lemma ReseedForgetsPreviousOffsets(f: Fudger, s: Statics, s': Statics, now: int, env: Env)
    requires UnitDraws(env.draws) && |env.draws| >= 2
    requires now >= s.nextUpdateMs && now >= s'.nextUpdateMs
    ensures UpdateDirectionDistance(f, s, now, env) == UpdateDirectionDistance(f, s', now, env)
  {
  }

  /** Two reseeds at the same reading agree on the direction exactly when their first
      draws agree, and on the factor exactly when their second draws agree: the new
      offsets are read off the draws, one draw each. */
  lemma ReseedFollowsDraws(f: Fudger, s: Statics, now: int, env: Env, env': Env)
    requires UnitDraws(env.draws) && |env.draws| >= 2
    requires UnitDraws(env'.draws) && |env'.draws| >= 2
    requires now >= s.nextUpdateMs
    ensures UpdateDirectionDistance(f, s, now, env).statics.directionDeg
              == UpdateDirectionDistance(f, s, now, env').statics.directionDeg
            <==> env.draws[0] == env'.draws[0]
    ensures UpdateDirectionDistance(f, s, now, env).statics.distanceFactor
              == UpdateDirectionDistance(f, s, now, env').statics.distanceFactor
            <==> env.draws[1] == env'.draws[1]
  {
  }

  /** The constructor: coerce the distance, then make sure the shared offsets are seeded
      for the current window. Inside an open window the shared offsets and the draws are
      left as they are; otherwise one reseed reads the direction and the factor off the
      next two draws and stamps the instance with now. */
  function New(km: Int32, s: Statics, now: int, env: Env): (w: Window)
    requires UnitDraws(env.draws)
    requires now >= s.nextUpdateMs ==> |env.draws| >= 2
    ensures w.fudger.distanceKm >= 1
    ensures km > 0 ==> w.fudger.distanceKm == km
    ensures km <= 0 ==> w.fudger.distanceKm == DEFAULT_DISTANCE_KM
    ensures now < s.nextUpdateMs ==> w.statics == s && w.env == env && w.fudger.lastUpdateMs == 0
    ensures now >= s.nextUpdateMs ==>
              && w.statics.nextUpdateMs == now + UPDATE_INTERVAL_MS
              && w.env == env.(draws := env.draws[2..])
              && w.fudger.lastUpdateMs == now
    ensures now >= s.nextUpdateMs ==>
              && w.statics.directionDeg / 360.0 == env.draws[0]
              && (w.statics.distanceFactor - 1.0) / VARIATION_PERCENT == 2.0 * env.draws[1] - 1.0
    ensures StaticsValid(s) ==> StaticsValid(w.statics)
    ensures now < w.statics.nextUpdateMs
  {
    UpdateDirectionDistance(Fudger(CoerceDistanceKm(km), 0), s, now, env)
  }

  /** Clock readings that never go backwards. */
  predicate NonDecreasing(nows: seq<int>) {
    forall i, j :: 0 <= i <= j < |nows| ==> nows[i] <= nows[j]
  }

  /** The refresh half of a run of createCoarse calls at the given clock readings: each
      call first runs updateDirectionDistance. No refresh happens while every reading is
      before the schedule. After the run the window is open at the last reading. */
  function RefreshAll(f: Fudger, s: Statics, nows: seq<int>, env: Env): (w: Window)
    requires UnitDraws(env.draws) && |env.draws| >= 2 * |nows|
    ensures StaticsValid(s) ==> StaticsValid(w.statics)
    ensures w.fudger.distanceKm == f.distanceKm && w.env.nextAddr == env.nextAddr
    ensures |env.draws| - 2 * |nows| <= |w.env.draws| <= |env.draws|
    ensures (forall i :: 0 <= i < |nows| ==> nows[i] < s.nextUpdateMs) ==> w == Window(s, f, env)
    ensures |nows| > 0 ==> nows[|nows| - 1] < w.statics.nextUpdateMs
    decreases |nows|
  {
    if nows == [] then
      Window(s, f, env)
    else
      var w1 := UpdateDirectionDistance(f, s, nows[0], env);
      RefreshAll(w1.fudger, w1.statics, nows[1..], w1.env)
  }

  /** A run of refreshes consumes draws from the front only: what is left is a suffix of
      the draws it started with. */
  lemma {:induction false} RefreshConsumesFromFront(f: Fudger, s: Statics, nows: seq<int>, env: Env)
    requires UnitDraws(env.draws) && |env.draws| >= 2 * |nows|
    ensures var w := RefreshAll(f, s, nows, env);
            w.env.draws == env.draws[|env.draws| - |w.env.draws|..]
    decreases |nows|
  {
    if nows != [] {
      var w1 := UpdateDirectionDistance(f, s, nows[0], env);
      RefreshConsumesFromFront(w1.fudger, w1.statics, nows[1..], w1.env);
    }
  }

  /** The shared offsets are reseeded at most once per update interval: over readings
      that never go backwards and span less than one interval, a run of calls takes at
      most one pair of draws, and exactly one pair when the first reading is already at
      or past the schedule. */
  lemma {:induction false} AtMostOneReseedPerWindow(f: Fudger, s: Statics, nows: seq<int>, env: Env)
    requires UnitDraws(env.draws) && |env.draws| >= 2 * |nows|
    requires NonDecreasing(nows)
    requires |nows| > 0 ==> nows[|nows| - 1] < nows[0] + UPDATE_INTERVAL_MS
    ensures |env.draws| - |RefreshAll(f, s, nows, env).env.draws| <= 2
    ensures |nows| > 0 && nows[0] >= s.nextUpdateMs ==>
              |env.draws| - |RefreshAll(f, s, nows, env).env.draws| == 2
    decreases |nows|
  {
    if nows != [] {
      var w1 := UpdateDirectionDistance(f, s, nows[0], env);
      var rest := nows[1..];
      var w := RefreshAll(w1.fudger, w1.statics, rest, w1.env);
      assert RefreshAll(f, s, nows, env) == w;
      if nows[0] < s.nextUpdateMs {
        assert w1.env == env;
        if rest != [] {
          forall a, b | 0 <= a <= b < |rest| ensures rest[a] <= rest[b] {
            assert rest[a] == nows[a + 1] && rest[b] == nows[b + 1];
          }
          assert rest[|rest| - 1] == nows[|nows| - 1] && nows[0] <= nows[1] == rest[0];
          AtMostOneReseedPerWindow(w1.fudger, w1.statics, rest, w1.env);
        }
      } else {
        forall k | 0 <= k < |rest| ensures rest[k] < w1.statics.nextUpdateMs {
          assert rest[k] == nows[k + 1] <= nows[|nows| - 1];
        }
        assert w == w1;
        assert |w1.env.draws| == |env.draws| - 2;
      }
    }
  }

  /** Constructing with a non-positive distance behaves exactly like constructing with
      the default of 10 km. */
  lemma NonPositiveDistanceActsAsDefault(km: Int32, s: Statics, now: int, env: Env)
    requires km <= 0
    requires UnitDraws(env.draws)
    requires now >= s.nextUpdateMs ==> |env.draws| >= 2
    ensures New(km, s, now, env) == New(DEFAULT_DISTANCE_KM, s, now, env)
  {
  }

  /** setDistanceKm: coerces and stores the distance and stamps the diagnostic time. It
      takes no shared state, so it cannot reseed the direction or factor. */
  function SetDistanceKm(f: Fudger, km: Int32, now: int): (g: Fudger)
    ensures g.distanceKm >= 1
    ensures km > 0 ==> g.distanceKm == km
    ensures km <= 0 ==> g.distanceKm == DEFAULT_DISTANCE_KM
    ensures g.lastUpdateMs == now
  {
    f.(distanceKm := CoerceDistanceKm(km), lastUpdateMs := now)
  }

  // ---------------------------------------------------------------------------
  // The transform

  /** The offset in meters: base distance times 1000 times the shared factor. */
  function OffsetMeters(distanceKm: int, s: Statics): real {
    distanceKm as real * 1000.0 * s.distanceFactor
  }

  /** Every offset is at least 950 m: one kilometre shrunk by the largest variation. */
  lemma OffsetAtLeast950(distanceKm: int, s: Statics)
    requires distanceKm >= 1 && StaticsValid(s)
    ensures OffsetMeters(distanceKm, s) >= 950.0
  {
    var extra := (distanceKm - 1) as real * 1000.0;
    assert OffsetMeters(distanceKm, s) == 1000.0 * s.distanceFactor + extra * s.distanceFactor;
    ProductNonNegative(extra, s.distanceFactor);
  }

  lemma ProductNonNegative(a: real, b: real)
    requires a >= 0.0 && b >= 0.0
    ensures a * b >= 0.0
  {
  }

  /** North component of an offset pointed along a compass bearing. */
  function NorthMeters(distanceM: real, directionDeg: real, m: MathLib): real {
    distanceM * m.cos(ToRadians(directionDeg))
  }

  /** East component of an offset pointed along a compass bearing. */
  function EastMeters(distanceM: real, directionDeg: real, m: MathLib): real {
    distanceM * m.sin(ToRadians(directionDeg))
  }

  /** The body of createCoarse(Location) once the offsets are current: a stripped copy,
      moved north by the north component (converted at the equator rate) and east by the
      east component (converted at the cosine of the new, already clamped latitude),
      clamped and wrapped, reporting max(offset, original accuracy). */
  function Obfuscate(distanceKm: int, s: Statics, fine: Fix, m: MathLib): (g: Fix)
    requires distanceKm >= 1 && StaticsValid(s)
    ensures CoarseOf(fine, g)
  {
    var coarse := StrippedCopy(fine);
    var baseLat := ClampLatitude(coarse.latitude);
    var baseLon := WrapLongitude(coarse.longitude);
    var distanceM := OffsetMeters(distanceKm, s);
    var dy := NorthMeters(distanceM, s.directionDeg, m);
    var dx := EastMeters(distanceM, s.directionDeg, m);
    var newLat := ClampLatitude(baseLat + MetersToDegreesLatitude(dy));
    var newLon := WrapLongitude(baseLon + FlooredMetersToDegreesLongitude(dx, newLat, m));
    OffsetAtLeast950(distanceKm, s);
    coarse.(latitude := newLat, longitude := newLon, accuracy := Some(Max(distanceM, AccuracyOf(coarse))))
  }

  /** Reading the offset back from an obfuscated fix. The reported accuracy is the
      offset or the original accuracy, whichever is larger, and the offset is positive.
      When no clamping intervenes, the latitude moved by exactly the north component; the
      longitude always lands on the meridian of the input moved by an amount that
      converts back, at the result's latitude, to the east component. */
  lemma ObfuscateReadBack(distanceKm: int, s: Statics, fine: Fix, m: MathLib)
    requires distanceKm >= 1 && StaticsValid(s)
    ensures var g := Obfuscate(distanceKm, s, fine, m);
            AccuracyOf(g) >= OffsetMeters(distanceKm, s) > 0.0 && AccuracyOf(g) >= AccuracyOf(fine)
    ensures var g := Obfuscate(distanceKm, s, fine, m);
            AccuracyOf(g) == OffsetMeters(distanceKm, s) || AccuracyOf(g) == AccuracyOf(fine)
    ensures var g := Obfuscate(distanceKm, s, fine, m);
            var north := NorthMeters(OffsetMeters(distanceKm, s), s.directionDeg, m);
            InBand(fine.latitude) && InBand(fine.latitude + MetersToDegreesLatitude(north)) ==>
              (g.latitude - fine.latitude) * METERS_PER_DEGREE == north
    ensures var g := Obfuscate(distanceKm, s, fine, m);
            var east := EastMeters(OffsetMeters(distanceKm, s), s.directionDeg, m);
            SameMeridian(g.longitude, fine.longitude + FlooredMetersToDegreesLongitude(east, g.latitude, m))
  {
    var g := Obfuscate(distanceKm, s, fine, m);
    var baseLat := ClampLatitude(fine.latitude);
    var baseLon := WrapLongitude(fine.longitude);
    var distanceM := OffsetMeters(distanceKm, s);
    var dy := NorthMeters(distanceM, s.directionDeg, m);
    var dx := EastMeters(distanceM, s.directionDeg, m);
    assert g.latitude == ClampLatitude(baseLat + MetersToDegreesLatitude(dy));
    var dLon := FlooredMetersToDegreesLongitude(dx, g.latitude, m);
    assert g.longitude == WrapLongitude(baseLon + dLon);
    ShiftBetweenClamps(fine.latitude, baseLat, MetersToDegreesLatitude(dy), g.latitude);
    ShiftBetweenWraps(fine.longitude, baseLon, dLon, g.longitude);
    OffsetAtLeast950(distanceKm, s);
  }

  /** A call's results: shared offsets, instance, unconsumed resources and the coarse
      object. */
  datatype Coarse = Coarse(statics: Statics, fudger: Fudger, env: Env, location: Location)

  /** createCoarse(Location): refresh the shared offsets if due, then transform a fresh
      copy with the offsets of the window now open. The result is a new object, never the
      input; before the scheduled time the shared offsets and draws are untouched. */
  function CreateCoarse(f: Fudger, s: Statics, fine: Location, now: int, env: Env, m: MathLib): (r: Coarse)
    requires f.distanceKm >= 1 && StaticsValid(s)
    requires UnitDraws(env.draws)
    requires now >= s.nextUpdateMs ==> |env.draws| >= 2
    requires fine.addr < env.nextAddr
    ensures r.location.addr == env.nextAddr && r.location.addr != fine.addr
    ensures r.env.nextAddr == env.nextAddr + 1
    ensures CoarseOf(fine.fix, r.location.fix)
    ensures StaticsValid(r.statics) && now < r.statics.nextUpdateMs
    ensures r.location.fix == Obfuscate(f.distanceKm, r.statics, fine.fix, m)
    ensures r.fudger.distanceKm == f.distanceKm
    ensures now < s.nextUpdateMs ==> r.statics == s && r.fudger == f && r.env.draws == env.draws
    ensures r.env.draws == env.draws || r.env.draws == env.draws[2..]
    ensures var w := UpdateDirectionDistance(f, s, now, env);
            r.statics == w.statics && r.fudger == w.fudger && r.env == w.env.(nextAddr := env.nextAddr + 1)
    ensures UnitDraws(r.env.draws)
    ensures PositiveDraws(env.draws) ==> PositiveDraws(r.env.draws)
  {
    var w := UpdateDirectionDistance(f, s, now, env);
    var (coarse, env') := Allocate(w.env, Obfuscate(w.fudger.distanceKm, w.statics, fine.fix, m));
    Coarse(w.statics, w.fudger, env', coarse)
  }

  /** Putting a coarse object at address base in front of coarse objects at the
      following addresses keeps the list matched to its input, at consecutive addresses. */
  lemma PrependFresh(fines: seq<Location>, x: Location, rest: seq<Location>, base: Addr)
    requires |fines| == |rest| + 1
    requires CoarseOf(fines[0].fix, x.fix) && x.addr == base
    requires forall i :: 0 <= i < |rest| ==> CoarseOf(fines[1..][i].fix, rest[i].fix)
    requires forall i :: 0 <= i < |rest| ==> rest[i].addr == base + 1 + i
    ensures forall i :: 0 <= i < |fines| ==> CoarseOf(fines[i].fix, ([x] + rest)[i].fix)
    ensures forall i :: 0 <= i < |fines| ==> ([x] + rest)[i].addr == base + i
  {
    PrependCoarseOf(fines, x, rest);
  }

  /** The results of mapping over a list of fixes. */
  datatype Mapped = Mapped(statics: Statics, fudger: Fudger, env: Env, locations: seq<Location>)

  /** LocationResult.map(this::createCoarse): the single-fix form applied to each element
      in order, each with its own clock reading, allocating one new object per element. */
  function MapCoarse(f: Fudger, s: Statics, fines: seq<Location>, nows: seq<int>, env: Env, m: MathLib): (r: Mapped)
    requires |nows| == |fines|
    requires f.distanceKm >= 1 && StaticsValid(s)
    requires UnitDraws(env.draws) && |env.draws| >= 2 * |fines|
    requires AllAllocated(fines, env.nextAddr)
    ensures |r.locations| == |fines|
    ensures forall i :: 0 <= i < |fines| ==> CoarseOf(fines[i].fix, r.locations[i].fix)
    ensures forall i :: 0 <= i < |fines| ==> r.locations[i].addr == env.nextAddr + i
    ensures r.env.nextAddr == env.nextAddr + |fines|
    ensures StaticsValid(r.statics) && r.fudger.distanceKm == f.distanceKm
    ensures UnitDraws(r.env.draws)
    ensures PositiveDraws(env.draws) ==> PositiveDraws(r.env.draws)
    ensures var w := RefreshAll(f, s, nows, env);
            r.statics == w.statics && r.fudger == w.fudger && r.env.draws == w.env.draws
    decreases |fines|
  {
    if fines == [] then
      Mapped(s, f, env, [])
    else
      var c := CreateCoarse(f, s, fines[0], nows[0], env, m);
      var w1 := UpdateDirectionDistance(f, s, nows[0], env);
      RefreshIgnoresAllocator(w1.fudger, w1.statics, nows[1..], w1.env, c.env);
      assert AllAllocated(fines[1..], c.env.nextAddr) by {
        forall j | 0 <= j < |fines[1..]| ensures fines[1..][j].addr < c.env.nextAddr {
          assert fines[1..][j] == fines[j + 1];
        }
      }
      var rest := MapCoarse(c.fudger, c.statics, fines[1..], nows[1..], c.env, m);
      PrependFresh(fines, c.location, rest.locations, env.nextAddr);
      Mapped(rest.statics, rest.fudger, rest.env, [c.location] + rest.locations)
  }

  /** Element i of the mapped list is input element i transformed with the shared
      offsets in force at clock reading i: the window the refresh before reading i left
      open. */
  lemma {:induction false} MapCoarseInWindows(
    f: Fudger, s: Statics, fines: seq<Location>, nows: seq<int>, env: Env, m: MathLib)
    requires |nows| == |fines|
    requires f.distanceKm >= 1 && StaticsValid(s)
    requires UnitDraws(env.draws) && |env.draws| >= 2 * |fines|
    requires AllAllocated(fines, env.nextAddr)
    ensures var r := MapCoarse(f, s, fines, nows, env, m);
            forall i :: 0 <= i < |fines| ==>
              r.locations[i].fix == Obfuscate(f.distanceKm, Windows(f, s, nows, env)[i], fines[i].fix, m)
    decreases |fines|
  {
    if fines != [] {
      var c := CreateCoarse(f, s, fines[0], nows[0], env, m);
      var w1 := UpdateDirectionDistance(f, s, nows[0], env);
      assert AllAllocated(fines[1..], c.env.nextAddr) by {
        forall j | 0 <= j < |fines[1..]| ensures fines[1..][j].addr < c.env.nextAddr {
          assert fines[1..][j] == fines[j + 1];
        }
      }
      MapCoarseInWindows(c.fudger, c.statics, fines[1..], nows[1..], c.env, m);
      WindowsIgnoreAllocator(w1.fudger, w1.statics, nows[1..], w1.env, c.env);
      var rest := MapCoarse(c.fudger, c.statics, fines[1..], nows[1..], c.env, m);
      assert MapCoarse(f, s, fines, nows, env, m).locations == [c.location] + rest.locations;
      var inWindow := (st: Statics, x: Location, y: Location) =>
        StaticsValid(st) && y.fix == Obfuscate(f.distanceKm, st, x.fix, m);
      PrependRelated(inWindow, fines, c.statics, Windows(c.fudger, c.statics, nows[1..], c.env),
                     c.location, rest.locations);
    }
  }

  /** A batch call's results. */
  datatype CoarseBatch = CoarseBatch(statics: Statics, fudger: Fudger, env: Env, result: LocationResult)

  /** createCoarse(LocationResult): a new result object holding the coarse elements in the
      order of the input, element i a coarse version of input element i, every element a
      distinct new object. */
  function CreateCoarseBatch(
    f: Fudger, s: Statics, fine: LocationResult, nows: seq<int>, env: Env, m: MathLib): (r: CoarseBatch)
    requires |nows| == |fine.locations|
    requires f.distanceKm >= 1 && StaticsValid(s)
    requires UnitDraws(env.draws) && |env.draws| >= 2 * |fine.locations|
    requires fine.addr < env.nextAddr
    requires AllAllocated(fine.locations, env.nextAddr)
    ensures |r.result.locations| == |fine.locations|
    ensures forall i :: 0 <= i < |fine.locations| ==> CoarseOf(fine.locations[i].fix, r.result.locations[i].fix)
    ensures forall i, j :: 0 <= i < j < |fine.locations| ==> r.result.locations[i].addr != r.result.locations[j].addr
    ensures forall i :: 0 <= i < |fine.locations| ==> env.nextAddr <= r.result.locations[i].addr < r.result.addr
    ensures env.nextAddr <= r.result.addr < r.env.nextAddr
    ensures StaticsValid(r.statics) && r.fudger.distanceKm == f.distanceKm
    ensures UnitDraws(r.env.draws)
    ensures PositiveDraws(env.draws) ==> PositiveDraws(r.env.draws)
    ensures var w := RefreshAll(f, s, nows, env);
            r.statics == w.statics && r.fudger == w.fudger && r.env.draws == w.env.draws
    ensures (forall i :: 0 <= i < |nows| ==> nows[i] < s.nextUpdateMs) ==>
              r.statics == s && r.fudger == f && r.env.draws == env.draws
    ensures |nows| > 0 ==> nows[|nows| - 1] < r.statics.nextUpdateMs
    ensures forall i :: 0 <= i < |fine.locations| ==>
              r.result.locations[i].fix
                == Obfuscate(f.distanceKm, Windows(f, s, nows, env)[i], fine.locations[i].fix, m)
    ensures forall i :: 0 <= i < |fine.locations| ==>
              Windows(f, s, nows, env)[i] == RefreshAll(f, s, nows[..i + 1], env).statics
  {
    var mapped := MapCoarse(f, s, fine.locations, nows, env, m);
    MapCoarseInWindows(f, s, fine.locations, nows, env, m);
    WindowsAreRefreshPrefixes(f, s, nows, env);
    var result := LocationResult(mapped.env.nextAddr, mapped.locations);
    CoarseBatch(mapped.statics, mapped.fudger, mapped.env.(nextAddr := mapped.env.nextAddr + 1), result)
  }

  /** The refresh run does not look at the allocator: two environments with the same
      draws leave the same shared offsets, instance and draws. */
  lemma {:induction false} RefreshIgnoresAllocator(f: Fudger, s: Statics, nows: seq<int>, env: Env, env': Env)
    requires UnitDraws(env.draws) && |env.draws| >= 2 * |nows|
    requires env'.draws == env.draws
    ensures var w := RefreshAll(f, s, nows, env);
            var w' := RefreshAll(f, s, nows, env');
            w'.statics == w.statics && w'.fudger == w.fudger && w'.env.draws == w.env.draws
    decreases |nows|
  {
    if nows != [] {
      var w1 := UpdateDirectionDistance(f, s, nows[0], env);
      var w1' := UpdateDirectionDistance(f, s, nows[0], env');
      assert w1'.statics == w1.statics && w1'.fudger == w1.fudger && w1'.env.draws == w1.env.draws;
      assert RefreshAll(f, s, nows, env) == RefreshAll(w1.fudger, w1.statics, nows[1..], w1.env);
      assert RefreshAll(f, s, nows, env') == RefreshAll(w1.fudger, w1.statics, nows[1..], w1'.env);
      RefreshIgnoresAllocator(w1.fudger, w1.statics, nows[1..], w1.env, w1'.env);
    }
  }

  /** The window open after the first k readings is the window the remaining k - 1
      readings open from the first reading's window, whatever the allocator. */
  lemma RefreshPrefixStep(f: Fudger, s: Statics, nows: seq<int>, env: Env, env': Env, k: nat)
    requires UnitDraws(env.draws) && |env.draws| >= 2 * |nows|
    requires 1 <= k <= |nows|
    requires env'.draws == UpdateDirectionDistance(f, s, nows[0], env).env.draws
    ensures var w1 := UpdateDirectionDistance(f, s, nows[0], env);
            RefreshAll(f, s, nows[..k], env).statics
              == RefreshAll(w1.fudger, w1.statics, nows[1..][..k - 1], env').statics
  {
    var w1 := UpdateDirectionDistance(f, s, nows[0], env);
    assert nows[..k][0] == nows[0];
    assert nows[..k][1..] == nows[1..][..k - 1];
    RefreshIgnoresAllocator(w1.fudger, w1.statics, nows[1..][..k - 1], w1.env, env');
  }

  /** The shared offsets in force at each reading of a run of createCoarse calls: entry
      i is the window open after the refresh at reading i. */
  function Windows(f: Fudger, s: Statics, nows: seq<int>, env: Env): (ws: seq<Statics>)
    requires UnitDraws(env.draws) && |env.draws| >= 2 * |nows|
    ensures |ws| == |nows|
    ensures StaticsValid(s) ==> forall i :: 0 <= i < |ws| ==> StaticsValid(ws[i])
    decreases |nows|
  {
    if nows == [] then
      []
    else
      var w1 := UpdateDirectionDistance(f, s, nows[0], env);
      [w1.statics] + Windows(w1.fudger, w1.statics, nows[1..], w1.env)
  }

  /** The windows do not depend on the allocator. */
  lemma {:induction false} WindowsIgnoreAllocator(f: Fudger, s: Statics, nows: seq<int>, env: Env, env': Env)
    requires UnitDraws(env.draws) && |env.draws| >= 2 * |nows|
    requires env'.draws == env.draws
    ensures Windows(f, s, nows, env') == Windows(f, s, nows, env)
    decreases |nows|
  {
    if nows != [] {
      var w1 := UpdateDirectionDistance(f, s, nows[0], env);
      var w1' := UpdateDirectionDistance(f, s, nows[0], env');
      assert w1'.statics == w1.statics && w1'.fudger == w1.fudger && w1'.env.draws == w1.env.draws;
      WindowsIgnoreAllocator(w1.fudger, w1.statics, nows[1..], w1.env, w1'.env);
    }
  }

  /** Entry i of the windows is the window the refresh run over the first i + 1
      readings leaves: no later reading affects it. */
  lemma {:induction false} WindowsAreRefreshPrefixes(f: Fudger, s: Statics, nows: seq<int>, env: Env)
    requires UnitDraws(env.draws) && |env.draws| >= 2 * |nows|
    ensures forall i :: 0 <= i < |nows| ==>
              Windows(f, s, nows, env)[i] == RefreshAll(f, s, nows[..i + 1], env).statics
    decreases |nows|
  {
    if nows != [] {
      var w1 := UpdateDirectionDistance(f, s, nows[0], env);
      WindowsAreRefreshPrefixes(w1.fudger, w1.statics, nows[1..], w1.env);
      forall i | 0 <= i < |nows|
        ensures Windows(f, s, nows, env)[i] == RefreshAll(f, s, nows[..i + 1], env).statics
      {
        RefreshPrefixStep(f, s, nows, env, w1.env, i + 1);
      }
    }
  }

  /** With the clock held at one reading for the whole batch, the batch is one refresh
      decision followed by a plain map: every element is transformed with the same
      direction and factor, those of the window the first element opened. */
  lemma {:induction false} FixedClockSharesOneWindow(
    f: Fudger, s: Statics, fines: seq<Location>, nows: seq<int>, t: int, env: Env, m: MathLib)
    requires |nows| == |fines| > 0
    requires forall i :: 0 <= i < |nows| ==> nows[i] == t
    requires f.distanceKm >= 1 && StaticsValid(s)
    requires UnitDraws(env.draws) && |env.draws| >= 2 * |fines|
    requires AllAllocated(fines, env.nextAddr)
    ensures var w := UpdateDirectionDistance(f, s, t, env);
            var r := MapCoarse(f, s, fines, nows, env, m);
            && r.statics == w.statics
            && forall i :: 0 <= i < |fines| ==>
                 r.locations[i].fix == Obfuscate(f.distanceKm, w.statics, fines[i].fix, m)
    decreases |fines|
  {
    var w := UpdateDirectionDistance(f, s, t, env);
    var c := CreateCoarse(f, s, fines[0], nows[0], env, m);
    var r := MapCoarse(f, s, fines, nows, env, m);
    assert c.statics == w.statics;
    if |fines| > 1 {
      FixedClockSharesOneWindow(c.fudger, c.statics, fines[1..], nows[1..], t, c.env, m);
      assert UpdateDirectionDistance(c.fudger, c.statics, t, c.env).statics == w.statics;
      forall i | 0 <= i < |fines|
        ensures r.locations[i].fix == Obfuscate(f.distanceKm, w.statics, fines[i].fix, m)
      {
        if i > 0 {
          assert fines[i] == fines[1..][i - 1];
        }
      }
    }
  }

  /** Changing the distance does not reseed: within the current window the next call
      reads the same direction and factor and only the offset length changes. */
  lemma SetDistanceKeepsSharedOffsets(
    f: Fudger, km: Int32, t: int, s: Statics, fine: Location, now: int, env: Env, m: MathLib)
    requires StaticsValid(s) && now < s.nextUpdateMs
    requires UnitDraws(env.draws) && fine.addr < env.nextAddr
    ensures var r := CreateCoarse(SetDistanceKm(f, km, t), s, fine, now, env, m);
            && r.statics == s
            && r.location.fix == Obfuscate(CoerceDistanceKm(km), s, fine.fix, m)
  {
  }

  /** Ten kilometres due east of (0, 0) with a unit factor lands on the equator at
      10000 / 111000 degrees east, reporting 10000 m. */
  lemma TenKilometresEastAtEquator(s: Statics, fine: Fix, m: MathLib)
    requires s.directionDeg == 90.0 && s.distanceFactor == 1.0
    requires m.cos(ToRadians(90.0)) == 0.0 && m.sin(ToRadians(90.0)) == 1.0 && m.cos(ToRadians(0.0)) == 1.0
    requires fine.latitude == 0.0 && fine.longitude == 0.0 && AccuracyOf(fine) <= 10000.0
    ensures var g := Obfuscate(10, s, fine, m);
            && g.latitude == 0.0
            && g.longitude == 10000.0 / METERS_PER_DEGREE
            && g.accuracy == Some(10000.0)
  {
    assert OffsetMeters(10, s) == 10000.0;
    assert NorthMeters(10000.0, 90.0, m) == 0.0;
    assert EastMeters(10000.0, 90.0, m) == 10000.0;
    ClampLatitudeKeepsBand(0.0);
    assert FloorCos(m.cos(ToRadians(0.0))) == 1.0;
    assert FlooredMetersToDegreesLongitude(10000.0, 0.0, m) == 10000.0 / METERS_PER_DEGREE;
    WrapLongitudeKeepsCanonical(0.0);
    WrapLongitudeKeepsCanonical(10000.0 / METERS_PER_DEGREE);
  }
}

=== FILE: fixes.dfy ===
/** The records the engine reads and writes: a location fix, a heap object holding one
    (Java compares these by identity), a batch of them, and the process resources a call
    consumes (random draws and fresh object addresses). */
module Fixes {
  import opened Geo

  datatype Option<+T> = None | Some(value: T)

  /** Address of a heap object. Java's `==` on objects is equality of addresses. */
  type Addr = nat

  /** The opaque extension bag (a Bundle) of a fix. */
  type Extras = map<string, string>

  /** One reported position. Fields the engine never touches stand for the rest of the
      platform's Location record and are copied unchanged. */
  datatype Fix = Fix(
    provider: string,
    timeMs: int,
    elapsedRealtimeNs: int,
    latitude: real,
    longitude: real,
    accuracy: Option<real>,
    bearing: Option<real>,
    speed: Option<real>,
    altitude: Option<real>,
    extras: Option<Extras>)

  /** A Location object: its identity and its contents. */
  datatype Location = Location(addr: Addr, fix: Fix)

  /** A LocationResult object: its identity and its ordered fixes. */
  datatype LocationResult = LocationResult(addr: Addr, locations: seq<Location>)

  /** Location.getAccuracy(): zero when the fix reports no accuracy. */
  function AccuracyOf(f: Fix): real {
    if f.accuracy.Some? then f.accuracy.value else 0.0
  }

  /** `new Location(fine)` followed by removeBearing, removeSpeed, removeAltitude and
      setExtras(null). */
  function StrippedCopy(f: Fix): Fix {
    f.(bearing := None, speed := None, altitude := None, extras := None)
  }

  /** Nothing that could identify a route survives. */
  predicate Stripped(g: Fix) {
    g.bearing.None? && g.speed.None? && g.altitude.None? && g.extras.None?
  }

  /** Latitude inside the clamp band and longitude in its canonical range. */
  predicate InRange(g: Fix) {
    InBand(g.latitude) && -180.0 <= g.longitude < 180.0
  }

  /** What any coarse fix looks like, whatever fine fix it came from. */
  predicate Sanitized(g: Fix) {
    Stripped(g) && InRange(g) && g.accuracy.Some?
  }

  /** g is a coarse version of f: it comes from the same source and time, carries no
      metadata, has canonical coordinates, and never reports an accuracy tighter than f. */
  predicate CoarseOf(f: Fix, g: Fix) {
    && g.provider == f.provider
    && g.timeMs == f.timeMs
    && g.elapsedRealtimeNs == f.elapsedRealtimeNs
    && Sanitized(g)
    && AccuracyOf(g) >= AccuracyOf(f)
  }

  /** A coarse fix is a coarse version of itself, so handing it back unchanged is sound. */
  lemma CoarseOfItself(f: Fix, g: Fix)
    requires CoarseOf(f, g)
    ensures CoarseOf(g, g)
  {
  }

  /** Prepending one related triple to a list of related triples: if y is related to
      the first input under w, and ys[i] to input i + 1 under ws[i], then the prepended
      lists are related position by position. */
  lemma PrependRelated<W, X, Y>(rel: (W, X, Y) -> bool, xs: seq<X>, w: W, ws: seq<W>, y: Y, ys: seq<Y>)
    requires |xs| == |ys| + 1 && |ws| == |ys|
    requires rel(w, xs[0], y)
    requires forall i :: 0 <= i < |ys| ==> rel(ws[i], xs[1..][i], ys[i])
    ensures forall i :: 0 <= i < |xs| ==> rel(([w] + ws)[i], xs[i], ([y] + ys)[i])
  {
    forall i | 0 < i < |xs| ensures rel(([w] + ws)[i], xs[i], ([y] + ys)[i]) {
      assert xs[i] == xs[1..][i - 1];
    }
  }

  /** Putting a coarse version of the first fix in front of coarse versions of the
      remaining fixes, in order, matches the whole list element by element. */
  lemma PrependCoarseOf(fines: seq<Location>, x: Location, rest: seq<Location>)
    requires |fines| == |rest| + 1
    requires CoarseOf(fines[0].fix, x.fix)
    requires forall i :: 0 <= i < |rest| ==> CoarseOf(fines[1..][i].fix, rest[i].fix)
    ensures forall i :: 0 <= i < |fines| ==> CoarseOf(fines[i].fix, ([x] + rest)[i].fix)
  {
    var coarseOf := (u: (), a: Location, b: Location) => CoarseOf(a.fix, b.fix);
    PrependRelated(coarseOf, fines, (), seq(|rest|, _ => ()), x, rest);
  }

  /** Dropping three draws and then 3k more drops 3n, where n = k + 1. */
  lemma DropGroups(draws: seq<real>, k: nat, n: nat)
    requires n == k + 1 && |draws| >= 3 * n
    ensures draws[3..][3 * k..] == draws[3 * n..]
  {
  }

  /** Every object in the list was allocated before nextAddr. */
  predicate AllAllocated(locations: seq<Location>, nextAddr: Addr) {
    forall i :: 0 <= i < |locations| ==> locations[i].addr < nextAddr
  }

  /** Every draw is a value Random.nextDouble() can return. */
  predicate UnitDraws(draws: seq<real>) {
    forall i :: 0 <= i < |draws| ==> 0.0 <= draws[i] < 1.0
  }

  /** Every draw is a non-zero value Random.nextDouble() can return. */
  predicate PositiveDraws(draws: seq<real>) {
    forall i :: 0 <= i < |draws| ==> 0.0 < draws[i] < 1.0
  }

  /** Draws as the noise strategy reads them, in groups of three from the front (two
      radius draws, then an angle draw): every draw is a value Random.nextDouble() can
      return, and the two radius draws of each whole group are non-zero. */
  predicate NoiseDraws(draws: seq<real>) {
    && UnitDraws(draws)
    && forall k :: 0 <= k < |draws| && 3 * k + 2 < |draws| ==> draws[3 * k] > 0.0 && draws[3 * k + 1] > 0.0
  }

  /** The radius draws of the first group are non-zero. */
  lemma NoiseDrawsFront(draws: seq<real>)
    requires NoiseDraws(draws) && |draws| >= 3
    ensures draws[0] > 0.0 && draws[1] > 0.0
  {
    assert draws[3 * 0] > 0.0 && draws[3 * 0 + 1] > 0.0;
  }

  /** Taking one group of three draws leaves the rest in groups of three. */
  lemma NoiseDrawsAfterGroup(draws: seq<real>)
    requires NoiseDraws(draws) && |draws| >= 3
    ensures NoiseDraws(draws[3..])
  {
    forall k | 0 <= k < |draws[3..]| && 3 * k + 2 < |draws[3..]|
      ensures draws[3..][3 * k] > 0.0 && draws[3..][3 * k + 1] > 0.0
    {
      assert draws[3..][3 * k] == draws[3 * (k + 1)] && draws[3..][3 * k + 1] == draws[3 * (k + 1) + 1];
    }
  }

  /** The process resources a call consumes: the values the random generator's
      nextDouble() will return next, in order, and the next free heap address (every
      object allocated so far has a smaller address). */
  datatype Env = Env(draws: seq<real>, nextAddr: Addr)

  /** `new Location(...)`: a fresh object, and the allocator moves past it. */
  function Allocate(env: Env, f: Fix): (r: (Location, Env))
    ensures r.0.fix == f
    ensures r.0.addr == env.nextAddr < r.1.nextAddr
    ensures r.1.draws == env.draws
  {
    (Location(env.nextAddr, f), env.(nextAddr := env.nextAddr + 1))
  }
}

=== FILE: geo.dfy ===
/** Coordinate arithmetic shared by both obfuscation strategies: latitude clamping,
    longitude wrapping with Java's truncating remainder, and meters-to-degrees conversion
    on an equirectangular approximation.

    Coordinates are reals. Sine, cosine and the natural logarithm are uninterpreted: a
    caller passes them in as a MathLib, and a proof that needs a range fact about them
    states it as a premise (Lawful). */
module Geo {

  /** Meters per degree of latitude (and of longitude at the equator), 111 000. */
  const METERS_PER_DEGREE: real := 111000.0

  /** Latitudes are clamped one meter's worth of degrees short of either pole. */
  const MAX_LATITUDE: real := 90.0 - 1.0 / METERS_PER_DEGREE

  /** Math.PI written out in decimal. */
  const PI: real := 3.141592653589793

  /** Smallest magnitude the distance strategy lets the longitude cosine take. */
  const MIN_COS: real := 0.000001

  /** The transcendental functions the strategies call, left uninterpreted. */
  datatype MathLib = MathLib(sin: real -> real, cos: real -> real, ln: real -> real)

  /** Cosine is positive strictly between -90 and 90 degrees. */
  ghost predicate CosPositiveOffPoles(m: MathLib) {
    forall x :: -PI / 2.0 < x < PI / 2.0 ==> m.cos(x) > 0.0
  }

  /** The logarithm of a number in (0, 1] is not positive. */
  ghost predicate LnNonPositiveOnUnit(m: MathLib) {
    forall x :: 0.0 < x <= 1.0 ==> m.ln(x) <= 0.0
  }

  /** The range facts of the real functions that the proofs rely on. */
  ghost predicate Lawful(m: MathLib) {
    CosPositiveOffPoles(m) && LnNonPositiveOnUnit(m)
  }

  /** Math.max on two values (NaN and signed zeros do not arise on reals). */
  function Max(a: real, b: real): real {
    if a >= b then a else b
  }

  function Abs(x: real): real {
    if x >= 0.0 then x else -x
  }

  /** Distance between two points of the real line. */
  function Dist(a: real, b: real): real {
    Abs(a - b)
  }

  /** Math.toRadians. */
  function ToRadians(deg: real): real {
    deg / 180.0 * PI
  }

  /** lat lies inside the clamp band. */
  predicate InBand(lat: real) {
    -MAX_LATITUDE <= lat <= MAX_LATITUDE
  }

  /** Every clamped latitude lies strictly between the poles in radians, where a lawful
      cosine is positive. */
  lemma ClampedLatitudeOffPoles(lat: real)
    requires InBand(lat)
    ensures -PI / 2.0 < ToRadians(lat) < PI / 2.0
  {
  }

  /** wrapLatitude: the nearest latitude inside [-MAX_LATITUDE, MAX_LATITUDE]. */
  function ClampLatitude(lat: real): (r: real)
    ensures InBand(r)
    ensures forall y :: InBand(y) ==> Dist(r, lat) <= Dist(y, lat)
  {
    var south := if lat > MAX_LATITUDE then MAX_LATITUDE else lat;
    if south < -MAX_LATITUDE then -MAX_LATITUDE else south
  }

  /** A latitude already inside the band is left where it is. */
  lemma ClampLatitudeKeepsBand(lat: real)
    requires InBand(lat)
    ensures ClampLatitude(lat) == lat
  {
    assert Dist(ClampLatitude(lat), lat) <= Dist(lat, lat);
  }

  // ---------------------------------------------------------------------------
  // Longitude

  /** q is an integer. */
  predicate IsWhole(q: real) {
    q.Floor as real == q
  }

  /** a and b name the same meridian: they differ by a whole number of turns. */
  predicate SameMeridian(a: real, b: real) {
    IsWhole((a - b) / 360.0)
  }

  lemma SameMeridianByTurns(a: real, b: real, k: int)
    requires a - b == k as real * 360.0
    ensures SameMeridian(a, b)
  {
    assert (a - b) / 360.0 == k as real;
  }

  lemma SameMeridianSymmetric(a: real, b: real)
    requires SameMeridian(a, b)
    ensures SameMeridian(b, a)
  {
    var k := ((a - b) / 360.0).Floor;
    SameMeridianByTurns(b, a, -k);
  }

  lemma SameMeridianTransitive(a: real, b: real, c: real)
    requires SameMeridian(a, b) && SameMeridian(b, c)
    ensures SameMeridian(a, c)
  {
    var k := ((a - b) / 360.0).Floor;
    var j := ((b - c) / 360.0).Floor;
    SameMeridianByTurns(a, c, k + j);
  }

  /** Moving two points of the same meridian by the same amount keeps them together. */
  lemma SameMeridianShift(a: real, b: real, d: real)
    requires SameMeridian(a, b)
    ensures SameMeridian(a + d, b + d)
  {
    assert (a + d) - (b + d) == a - b;
  }

  /** Two canonical longitudes of the same meridian are equal. */
  lemma CanonicalLongitudeUnique(a: real, b: real)
    requires -180.0 <= a < 180.0 && -180.0 <= b < 180.0
    requires SameMeridian(a, b)
    ensures a == b
  {
    var q := (a - b) / 360.0;
    assert -1.0 < q < 1.0;
    assert q.Floor == 0;
  }

  /** Rounding toward zero, as Java's floating-point remainder does. */
  function TruncateTowardZero(q: real): int {
    if q >= 0.0 then q.Floor else -((-q).Floor)
  }

  /** Java's `x % 360.0`: the remainder of a division truncated toward zero, so it keeps
      the sign of the dividend (Dafny's Euclidean % would not). */
  function JavaRem360(x: real): (r: real)
    ensures -360.0 < r < 360.0
    ensures x >= 0.0 ==> r >= 0.0
    ensures x <= 0.0 ==> r <= 0.0
    ensures SameMeridian(r, x)
  {
    var k := TruncateTowardZero(x / 360.0);
    SameMeridianByTurns(x - k as real * 360.0, x, -k);
    x - k as real * 360.0
  }

  /** wrapLongitude: reduce with Java's remainder, then shift once into [-180, 180). */
  function WrapLongitude(lon: real): (r: real)
    ensures -180.0 <= r < 180.0
    ensures SameMeridian(r, lon)
  {
    var rem := JavaRem360(lon);
    var high := if rem >= 180.0 then rem - 360.0 else rem;
    var low := if high < -180.0 then high + 360.0 else high;
    SameMeridianByTurns(low, rem, if rem >= 180.0 then -1 else if rem < -180.0 then 1 else 0);
    SameMeridianTransitive(low, rem, lon);
    low
  }

  /** An independent definition of the canonical longitude: shift by whole turns using
      the floor rather than Java's remainder. */
  function CanonicalLongitude(lon: real): real {
    lon - ((lon + 180.0) / 360.0).Floor as real * 360.0
  }

  lemma CanonicalLongitudeInRange(lon: real)
    ensures -180.0 <= CanonicalLongitude(lon) < 180.0
    ensures SameMeridian(CanonicalLongitude(lon), lon)
  {
    var k := ((lon + 180.0) / 360.0).Floor;
    SameMeridianByTurns(CanonicalLongitude(lon), lon, -k);
  }

  /** The source's two-step wrap computes exactly the canonical representative of the
      input's meridian, for every real input. */
  lemma WrapLongitudeIsCanonical(lon: real)
    ensures WrapLongitude(lon) == CanonicalLongitude(lon)
  {
    CanonicalLongitudeInRange(lon);
    SameMeridianSymmetric(CanonicalLongitude(lon), lon);
    SameMeridianTransitive(WrapLongitude(lon), lon, CanonicalLongitude(lon));
    CanonicalLongitudeUnique(WrapLongitude(lon), CanonicalLongitude(lon));
  }

  /** A longitude already in [-180, 180) is left unchanged, so wrapping is idempotent. */
  lemma WrapLongitudeKeepsCanonical(lon: real)
    requires -180.0 <= lon < 180.0
    ensures WrapLongitude(lon) == lon
  {
    SameMeridianByTurns(lon, lon, 0);
    SameMeridianTransitive(WrapLongitude(lon), lon, lon);
    CanonicalLongitudeUnique(WrapLongitude(lon), lon);
  }

  /** Clamping, shifting and clamping again is a plain shift when neither clamp bites. */
  lemma ShiftBetweenClamps(lat: real, baseLat: real, d: real, newLat: real)
    requires baseLat == ClampLatitude(lat) && newLat == ClampLatitude(baseLat + d)
    ensures InBand(lat) && InBand(lat + d) ==> newLat == lat + d
  {
    if InBand(lat) && InBand(lat + d) {
      ClampLatitudeKeepsBand(lat);
      ClampLatitudeKeepsBand(lat + d);
    }
  }

  /** Wrapping, shifting and wrapping again stays on the meridian of the shifted input. */
  lemma ShiftBetweenWraps(lon: real, baseLon: real, d: real, newLon: real)
    requires baseLon == WrapLongitude(lon) && newLon == WrapLongitude(baseLon + d)
    ensures SameMeridian(newLon, lon + d)
  {
    SameMeridianShift(baseLon, lon, d);
    SameMeridianTransitive(newLon, baseLon + d, lon + d);
  }

  // ---------------------------------------------------------------------------
  // Meters to degrees

  /** metersToDegreesLatitude: converting back to meters gives the input distance. */
  function MetersToDegreesLatitude(distance: real): (deg: real)
    ensures deg * METERS_PER_DEGREE == distance
  {
    distance / METERS_PER_DEGREE
  }

  /** The distance strategy's guard on the cosine: a magnitude below MIN_COS is raised
      to MIN_COS, keeping the sign (Math.copySign; zero counts as positive). */
  function FloorCos(c: real): (r: real)
    ensures Abs(r) >= MIN_COS
    ensures Abs(c) >= MIN_COS ==> r == c
    ensures Abs(c) < MIN_COS ==> Abs(r) == MIN_COS
    ensures r > 0.0 <==> c >= 0.0
  {
    if Abs(c) < MIN_COS then (if c >= 0.0 then MIN_COS else -MIN_COS) else c
  }

  /** The distance strategy's metersToDegreesLongitude: the divisor is never zero, and
      converting back with the same floored cosine gives the input distance. */
  function FlooredMetersToDegreesLongitude(distance: real, lat: real, m: MathLib): (deg: real)
    ensures deg * (METERS_PER_DEGREE * FloorCos(m.cos(ToRadians(lat)))) == distance
  {
    var c := FloorCos(m.cos(ToRadians(lat)));
    distance / (METERS_PER_DEGREE * c)
  }

  /** The noise strategy's metersToDegreesLongitude, which has no floor on the cosine: it
      is defined only where the cosine is non-zero. */
  function MetersToDegreesLongitude(distance: real, lat: real, m: MathLib): (deg: real)
    requires m.cos(ToRadians(lat)) != 0.0
    ensures deg * (METERS_PER_DEGREE * m.cos(ToRadians(lat))) == distance
  {
    distance / (METERS_PER_DEGREE * m.cos(ToRadians(lat)))
  }
}

=== FILE: geo_dp_fudger.dfy ===
/** The geo-indistinguishability strategy: planar Laplace noise calibrated to a target
    accuracy. Every call that misses the caches draws new noise; the hourly timer does not
    hold a noise vector, it only decides when the caches are dropped. The caches compare
    objects by identity, as Java's `==` does. */
module GeoDpFudger {
  import opened Geo
  import opened Fixes

  /** The accuracy floor, in meters. */
  const MIN_ACCURACY_M: real := 200.0

  /** How long cached results survive a miss: one hour. */
  const NOISE_UPDATE_INTERVAL_MS: int := 60 * 60 * 1000

  /** One instance: calibration, timer, and the last (fine, coarse) pair for single fixes
      and for batches. */
  datatype Fudger = Fudger(
    accuracyM: real,
    epsilon: real,
    nextUpdateMs: int,
    cachedFine: Option<Location>,
    cachedCoarse: Option<Location>,
    cachedFineResult: Option<LocationResult>,
    cachedCoarseResult: Option<LocationResult>)

  /** Each element is a coarse fix reporting at least the calibrated accuracy. */
  predicate CoarseElements(accuracyM: real, locations: seq<Location>) {
    forall i :: 0 <= i < |locations| ==>
      Sanitized(locations[i].fix) && AccuracyOf(locations[i].fix) >= accuracyM
  }

  /** What every operation keeps: the calibration, caches set and cleared in pairs, a
      cached coarse fix that is a coarse version of the cached fine fix, cached batches
      of equal length, and cached objects that are already allocated. */
  predicate Valid(g: Fudger, nextAddr: Addr) {
    && g.accuracyM >= MIN_ACCURACY_M
    && g.epsilon == 2.0 / g.accuracyM && g.epsilon > 0.0
    && g.cachedFine.Some? == g.cachedCoarse.Some?
    && g.cachedFineResult.Some? == g.cachedCoarseResult.Some?
    && (g.cachedCoarse.Some? ==>
          && CoarseOf(g.cachedFine.value.fix, g.cachedCoarse.value.fix)
          && AccuracyOf(g.cachedCoarse.value.fix) >= g.accuracyM
          && g.cachedFine.value.addr < nextAddr
          && g.cachedCoarse.value.addr < nextAddr)
    && (g.cachedCoarseResult.Some? ==>
          && |g.cachedCoarseResult.value.locations| == |g.cachedFineResult.value.locations|
          && AllAllocated(g.cachedCoarseResult.value.locations, nextAddr)
          && g.cachedFineResult.value.addr < nextAddr
          && g.cachedCoarseResult.value.addr < nextAddr)
  }

  /** The cached coarse batch holds only coarse fixes. Unlike Valid this is not kept
      unconditionally: a batch that contains a cached coarse object the caller has
      written into is mapped with that object returned as it is, and the result is
      cached. */
  predicate BatchCacheCoarse(g: Fudger) {
    g.cachedCoarseResult.Some? ==> CoarseElements(g.accuracyM, g.cachedCoarseResult.value.locations)
  }

  /** The constructor: accuracy floored at 200 m, epsilon = 2 / accuracy, timer one
      interval ahead, caches empty. */
  function New(accuracyM: real, now: int): (g: Fudger)
    ensures g.accuracyM >= accuracyM && g.accuracyM >= MIN_ACCURACY_M
    ensures g.accuracyM == accuracyM || g.accuracyM == MIN_ACCURACY_M
    ensures 0.0 < g.epsilon <= 0.01 && g.epsilon * g.accuracyM == 2.0
    ensures g.nextUpdateMs == now + NOISE_UPDATE_INTERVAL_MS
    ensures g.cachedFine.None? && g.cachedCoarse.None?
    ensures g.cachedFineResult.None? && g.cachedCoarseResult.None?
    ensures Valid(g, 0) && BatchCacheCoarse(g)
  {
    var accuracy := Max(accuracyM, MIN_ACCURACY_M);
    assert 2.0 / accuracy <= 2.0 / MIN_ACCURACY_M;
    Fudger(accuracy, 2.0 / accuracy, now + NOISE_UPDATE_INTERVAL_MS, None, None, None, None)
  }

  /** resetNoise: restart the timer from now; calibration and caches are untouched. */
  function ResetNoise(g: Fudger, now: int): (r: Fudger)
    ensures r.nextUpdateMs == now + NOISE_UPDATE_INTERVAL_MS
    ensures r.(nextUpdateMs := g.nextUpdateMs) == g
    ensures forall a: Addr :: Valid(g, a) ==> Valid(r, a)
  {
    g.(nextUpdateMs := now + NOISE_UPDATE_INTERVAL_MS)
  }

  /** updateNoise: before the timer expires nothing changes; at or after it, the timer is
      restarted from now and all four caches are dropped. Either way the timer is ahead
      of now when it returns. */
  function UpdateNoise(g: Fudger, now: int): (r: Fudger)
    ensures now < g.nextUpdateMs ==> r == g
    ensures now >= g.nextUpdateMs ==>
              && r.nextUpdateMs == now + NOISE_UPDATE_INTERVAL_MS
              && r.cachedFine.None? && r.cachedCoarse.None?
              && r.cachedFineResult.None? && r.cachedCoarseResult.None?
    ensures r.accuracyM == g.accuracyM && r.epsilon == g.epsilon
    ensures now < r.nextUpdateMs
    ensures forall a: Addr :: Valid(g, a) ==> Valid(r, a)
    ensures BatchCacheCoarse(g) ==> BatchCacheCoarse(r)
  {
    if now < g.nextUpdateMs then g
    else g.(nextUpdateMs := now + NOISE_UPDATE_INTERVAL_MS,
            cachedFine := None, cachedCoarse := None,
            cachedFineResult := None, cachedCoarseResult := None)
  }

  /** A second timer check at the same clock reading changes nothing. */
  lemma UpdateNoiseIdempotent(g: Fudger, now: int)
    ensures UpdateNoise(UpdateNoise(g, now), now) == UpdateNoise(g, now)
  {
  }

  // ---------------------------------------------------------------------------
  // Noise

  /** The radius -ln(u v) / epsilon of the planar Laplace mechanism (a sum of two
      exponential draws). For draws in (0, 1) the product lies in (0, 1), where a lawful
      logarithm is not positive, so the radius is not negative. */
  function NoiseRadius(u: real, v: real, epsilon: real, m: MathLib): (radius: real)
    requires 0.0 < u < 1.0 && 0.0 < v < 1.0 && epsilon > 0.0
    ensures LnNonPositiveOnUnit(m) ==> radius >= 0.0
    ensures radius * epsilon == -m.ln(u * v)
  {
    assert 0.0 < u * v <= 1.0;
    -m.ln(u * v) / epsilon
  }

  /** With epsilon = 2 / accuracy the radius is -ln(u v) times half the accuracy: the
      noise grows in proportion to the accuracy the instance was built with. */
  lemma NoiseRadiusScalesWithAccuracy(u: real, v: real, accuracyM: real, m: MathLib)
    requires 0.0 < u < 1.0 && 0.0 < v < 1.0 && accuracyM > 0.0
    ensures NoiseRadius(u, v, 2.0 / accuracyM, m) == -m.ln(u * v) * accuracyM / 2.0
  {
    var r := NoiseRadius(u, v, 2.0 / accuracyM, m);
    assert r * (2.0 / accuracyM) == -m.ln(u * v);
    assert r * 2.0 == -m.ln(u * v) * accuracyM;
  }

  /** North component of the noise vector: theta is measured from east. */
  function NorthNoise(radius: real, theta: real, m: MathLib): real {
    radius * m.sin(theta)
  }

  /** East component of the noise vector. */
  function EastNoise(radius: real, theta: real, m: MathLib): real {
    radius * m.cos(theta)
  }

  /** The noise branch of createCoarse(Location), given the three draws u, v, w: a
      stripped copy moved by a noise vector of radius NoiseRadius(u, v) at angle 2 pi w,
      the north component converted at the equator rate and the east component at the
      cosine of the clamped input latitude (not the noisy one), then clamped and wrapped,
      reporting max(accuracy, original accuracy). */
  function Perturb(accuracyM: real, epsilon: real, fine: Fix, u: real, v: real, w: real, m: MathLib): (c: Fix)
    requires 0.0 < u < 1.0 && 0.0 < v < 1.0 && epsilon > 0.0
    requires CosPositiveOffPoles(m)
    ensures CoarseOf(fine, c)
    ensures AccuracyOf(c) >= accuracyM
    ensures AccuracyOf(c) == accuracyM || AccuracyOf(c) == AccuracyOf(fine)
  {
    var coarse := StrippedCopy(fine);
    var lat := ClampLatitude(coarse.latitude);
    var lon := WrapLongitude(coarse.longitude);
    var radius := NoiseRadius(u, v, epsilon, m);
    var theta := 2.0 * PI * w;
    var dy := NorthNoise(radius, theta, m);
    var dx := EastNoise(radius, theta, m);
    ClampedLatitudeOffPoles(lat);
    var newLat := ClampLatitude(lat + MetersToDegreesLatitude(dy));
    var newLon := WrapLongitude(lon + MetersToDegreesLongitude(dx, lat, m));
    coarse.(latitude := newLat, longitude := newLon, accuracy := Some(Max(accuracyM, AccuracyOf(coarse))))
  }

  /** Reading the noise back from a perturbed fix: when no clamping intervenes, the
      latitude moved by exactly the north component; the longitude always lands on the
      meridian of the input moved by an amount that converts back, at the clamped input
      latitude, to the east component. */
  lemma PerturbReadBack(accuracyM: real, epsilon: real, fine: Fix, u: real, v: real, w: real, m: MathLib)
    requires 0.0 < u < 1.0 && 0.0 < v < 1.0 && epsilon > 0.0
    requires CosPositiveOffPoles(m)
    ensures var c := Perturb(accuracyM, epsilon, fine, u, v, w, m);
            var north := NorthNoise(NoiseRadius(u, v, epsilon, m), 2.0 * PI * w, m);
            InBand(fine.latitude) && InBand(fine.latitude + MetersToDegreesLatitude(north)) ==>
              (c.latitude - fine.latitude) * METERS_PER_DEGREE == north
    ensures m.cos(ToRadians(ClampLatitude(fine.latitude))) > 0.0
    ensures var c := Perturb(accuracyM, epsilon, fine, u, v, w, m);
            var east := EastNoise(NoiseRadius(u, v, epsilon, m), 2.0 * PI * w, m);
            SameMeridian(c.longitude, fine.longitude + MetersToDegreesLongitude(east, ClampLatitude(fine.latitude), m))
  {
    PerturbLatitude(accuracyM, epsilon, fine, u, v, w, m);
    PerturbLongitude(accuracyM, epsilon, fine, u, v, w, m);
  }

  lemma PerturbLatitude(accuracyM: real, epsilon: real, fine: Fix, u: real, v: real, w: real, m: MathLib)
    requires 0.0 < u < 1.0 && 0.0 < v < 1.0 && epsilon > 0.0
    requires CosPositiveOffPoles(m)
    ensures var c := Perturb(accuracyM, epsilon, fine, u, v, w, m);
            var north := NorthNoise(NoiseRadius(u, v, epsilon, m), 2.0 * PI * w, m);
            InBand(fine.latitude) && InBand(fine.latitude + MetersToDegreesLatitude(north)) ==>
              (c.latitude - fine.latitude) * METERS_PER_DEGREE == north
  {
    var c := Perturb(accuracyM, epsilon, fine, u, v, w, m);
    var lat := ClampLatitude(fine.latitude);
    var dy := NorthNoise(NoiseRadius(u, v, epsilon, m), 2.0 * PI * w, m);
    assert c.latitude == ClampLatitude(lat + MetersToDegreesLatitude(dy));
    ShiftBetweenClamps(fine.latitude, lat, MetersToDegreesLatitude(dy), c.latitude);
  }

  lemma PerturbLongitude(accuracyM: real, epsilon: real, fine: Fix, u: real, v: real, w: real, m: MathLib)
    requires 0.0 < u < 1.0 && 0.0 < v < 1.0 && epsilon > 0.0
    requires CosPositiveOffPoles(m)
    ensures m.cos(ToRadians(ClampLatitude(fine.latitude))) > 0.0
    ensures var c := Perturb(accuracyM, epsilon, fine, u, v, w, m);
            var east := EastNoise(NoiseRadius(u, v, epsilon, m), 2.0 * PI * w, m);
            SameMeridian(c.longitude, fine.longitude + MetersToDegreesLongitude(east, ClampLatitude(fine.latitude), m))
  {
    var c := Perturb(accuracyM, epsilon, fine, u, v, w, m);
    var lat := ClampLatitude(fine.latitude);
    ClampedLatitudeOffPoles(lat);
    var dx := EastNoise(NoiseRadius(u, v, epsilon, m), 2.0 * PI * w, m);
    var dLon := MetersToDegreesLongitude(dx, lat, m);
    var lon := WrapLongitude(fine.longitude);
    assert c.longitude == WrapLongitude(lon + dLon);
    ShiftBetweenWraps(fine.longitude, lon, dLon, c.longitude);
  }

  // ---------------------------------------------------------------------------
  // Single fixes

  /** o holds an object with x's identity. */
  predicate Holds(o: Option<Location>, x: Location) {
    o.Some? && o.value.addr == x.addr
  }

  /** The input is, by identity, the cached fine or the cached coarse object. */
  predicate Hit(g: Fudger, fine: Location) {
    Holds(g.cachedFine, fine) || Holds(g.cachedCoarse, fine)
  }

  /** The caller has not changed the cached coarse object since it was returned: if the
      input is that object, it still has the contents it was returned with. (Java's
      Location is mutable; a hit on the coarse object hands back the object itself, with
      whatever the caller wrote into it.) */
  predicate CoarseUnmutated(g: Fudger, fine: Location) {
    Holds(g.cachedCoarse, fine) ==> g.cachedCoarse.value == fine
  }

  /** The caller has not changed a cached object since handing it over or receiving it:
      a cached object with the input's identity also has the input's contents. (A hit on
      a mutated fine object is answered with the result computed from its old
      contents.) */
  predicate Unmutated(g: Fudger, fine: Location) {
    && (Holds(g.cachedFine, fine) ==> g.cachedFine.value == fine)
    && CoarseUnmutated(g, fine)
  }

  /** Handing back the cached coarse object unchanged is sound: it is a coarse version
      of itself. */
  lemma CachedCoarseOfItself(g: Fudger, fine: Location, nextAddr: Addr)
    requires Valid(g, nextAddr) && Holds(g.cachedCoarse, fine)
    ensures CoarseUnmutated(g, fine) ==> CoarseOf(fine.fix, fine.fix)
  {
    if CoarseUnmutated(g, fine) {
      CoarseOfItself(g.cachedFine.value.fix, fine.fix);
    }
  }

  /** A call's results: the instance, the unconsumed resources and the coarse object. */
  datatype Coarse = Coarse(fudger: Fudger, env: Env, location: Location)

  /** createCoarse(Location). A hit returns the cached coarse object and reads neither
      the clock nor the random generator: when the input is that object, the input
      itself as the caller now sees it; when the input is the cached fine object, the
      coarse object as it was returned. A miss checks the timer, takes three draws,
      returns a new object holding the perturbed copy and caches the (input, result)
      pair. Either way the returned object is the cached coarse one afterwards. */
  function CreateCoarse(g: Fudger, fine: Location, now: int, env: Env, m: MathLib): (r: Coarse)
    requires Valid(g, env.nextAddr) && fine.addr < env.nextAddr
    requires CosPositiveOffPoles(m)
    requires NoiseDraws(env.draws)
    requires !Hit(g, fine) ==> |env.draws| >= 3
    ensures Valid(r.fudger, r.env.nextAddr)
    ensures Holds(r.fudger.cachedCoarse, r.location)
    ensures CoarseUnmutated(g, fine) ==>
              && r.fudger.cachedCoarse == Some(r.location)
              && Sanitized(r.location.fix) && AccuracyOf(r.location.fix) >= g.accuracyM
    ensures Unmutated(g, fine) ==> CoarseOf(fine.fix, r.location.fix)
    ensures Holds(g.cachedCoarse, fine) ==> r == Coarse(g, env, fine)
    ensures Holds(g.cachedFine, fine) && !Holds(g.cachedCoarse, fine) ==>
              r == Coarse(g, env, g.cachedCoarse.value)
    ensures !Hit(g, fine) ==>
              (NoiseDrawsFront(env.draws);
               && r.location.addr == env.nextAddr && r.location.addr != fine.addr
               && r.env == Env(env.draws[3..], env.nextAddr + 1)
               && r.location.fix
                    == Perturb(g.accuracyM, g.epsilon, fine.fix, env.draws[0], env.draws[1], env.draws[2], m)
               && r.fudger == UpdateNoise(g, now).(cachedFine := Some(fine), cachedCoarse := Some(r.location))
               && now < r.fudger.nextUpdateMs)
    ensures r.fudger.accuracyM == g.accuracyM && r.fudger.epsilon == g.epsilon
    ensures BatchCacheCoarse(g) ==> BatchCacheCoarse(r.fudger)
    ensures NoiseDraws(r.env.draws) && env.nextAddr <= r.env.nextAddr
  {
    if Holds(g.cachedCoarse, fine) then
      CachedCoarseOfItself(g, fine, env.nextAddr);
      Coarse(g, env, fine)
    else if Holds(g.cachedFine, fine) then
      Coarse(g, env, g.cachedCoarse.value)
    else
      var g' := UpdateNoise(g, now);
      NoiseDrawsFront(env.draws);
      var noisy := Perturb(g'.accuracyM, g'.epsilon, fine.fix, env.draws[0], env.draws[1], env.draws[2], m);
      var (coarse, env') := Allocate(env.(draws := env.draws[3..]), noisy);
      NoiseDrawsAfterGroup(env.draws);
      Coarse(g'.(cachedFine := Some(fine), cachedCoarse := Some(coarse)), env', coarse)
  }

  /** Coarsening the result again returns the very same object and changes nothing, at
      any later clock reading. */
  lemma CoarseningTwiceReturnsSameObject(g: Fudger, fine: Location, now: int, later: int, env: Env, m: MathLib)
    requires Valid(g, env.nextAddr) && fine.addr < env.nextAddr
    requires CosPositiveOffPoles(m)
    requires NoiseDraws(env.draws)
    requires !Hit(g, fine) ==> |env.draws| >= 3
    ensures var r := CreateCoarse(g, fine, now, env, m);
            CreateCoarse(r.fudger, r.location, later, r.env, m) == r
  {
  }

  // ---------------------------------------------------------------------------
  // Batches

  /** Within a batch, one identity always comes with one content. */
  predicate Consistent(locations: seq<Location>) {
    forall i, j ::
      0 <= i < |locations| && 0 <= j < |locations| && locations[i].addr == locations[j].addr ==>
        locations[i] == locations[j]
  }

  /** No element of the batch is a mutated cached object. */
  predicate AllUnmutated(g: Fudger, locations: seq<Location>) {
    forall i :: 0 <= i < |locations| ==> Unmutated(g, locations[i])
  }

  /** No element of the batch is a mutated cached coarse object. */
  predicate AllCoarseUnmutated(g: Fudger, locations: seq<Location>) {
    forall i :: 0 <= i < |locations| ==> CoarseUnmutated(g, locations[i])
  }

  /** After coarsening the head of a batch, the rest of the batch is still unmutated
      with respect to the new caches when it was so before (for the cached fine object,
      when the batch is also consistent): the new cached fine object is the head, and the
      new cached coarse object is either the old one or fresher than every element. */
  lemma UnmutatedCarriesOver(g: Fudger, fines: seq<Location>, now: int, env: Env, m: MathLib)
    requires |fines| > 0
    requires Valid(g, env.nextAddr) && CosPositiveOffPoles(m)
    requires NoiseDraws(env.draws) && |env.draws| >= 3
    requires AllAllocated(fines, env.nextAddr)
    ensures AllUnmutated(g, fines) && Consistent(fines) ==>
              && AllUnmutated(CreateCoarse(g, fines[0], now, env, m).fudger, fines[1..])
              && Consistent(fines[1..])
    ensures AllCoarseUnmutated(g, fines) ==>
              AllCoarseUnmutated(CreateCoarse(g, fines[0], now, env, m).fudger, fines[1..])
  {
    if AllCoarseUnmutated(g, fines) {
      var c := CreateCoarse(g, fines[0], now, env, m);
      forall j | 0 <= j < |fines[1..]|
        ensures CoarseUnmutated(c.fudger, fines[1..][j])
      {
        assert fines[1..][j] == fines[j + 1];
        assert CoarseUnmutated(g, fines[j + 1]);
      }
    }
    if AllUnmutated(g, fines) && Consistent(fines) {
      var c := CreateCoarse(g, fines[0], now, env, m);
      forall j | 0 <= j < |fines[1..]|
        ensures Unmutated(c.fudger, fines[1..][j])
      {
        assert fines[1..][j] == fines[j + 1];
        assert Unmutated(g, fines[j + 1]);
      }
    }
  }

  /** Putting one object in front of the rest of a list keeps the list allocated, and
      coarse and element-wise matched to its input when the parts are. */
  lemma PrependCoarse(accuracyM: real, fines: seq<Location>, x: Location, rest: seq<Location>, nextAddr: Addr)
    requires |fines| == |rest| + 1
    requires x.addr < nextAddr && AllAllocated(rest, nextAddr)
    ensures AllAllocated([x] + rest, nextAddr)
    ensures Sanitized(x.fix) && AccuracyOf(x.fix) >= accuracyM && CoarseElements(accuracyM, rest) ==>
              CoarseElements(accuracyM, [x] + rest)
    ensures CoarseOf(fines[0].fix, x.fix) &&
            (forall i :: 0 <= i < |rest| ==> CoarseOf(fines[1..][i].fix, rest[i].fix)) ==>
              forall i :: 0 <= i < |fines| ==> CoarseOf(fines[i].fix, ([x] + rest)[i].fix)
  {
    if CoarseOf(fines[0].fix, x.fix) &&
       (forall i :: 0 <= i < |rest| ==> CoarseOf(fines[1..][i].fix, rest[i].fix)) {
      PrependCoarseOf(fines, x, rest);
    }
  }

  /** The results of mapping over a list of fixes. */
  datatype Mapped = Mapped(fudger: Fudger, env: Env, locations: seq<Location>)

  /** LocationResult.map(this::createCoarse): the single-fix form applied to each element
      in order, each element with its own cache check, timer check and draws. Every
      element of the result is coarse unless the caller passed in a cached coarse object
      it had mutated; element i is a coarse version of input element i whenever the
      caller has not mutated objects it handed over. */
  function MapCoarse(g: Fudger, fines: seq<Location>, nows: seq<int>, env: Env, m: MathLib): (r: Mapped)
    requires |nows| == |fines|
    requires Valid(g, env.nextAddr) && CosPositiveOffPoles(m)
    requires NoiseDraws(env.draws) && |env.draws| >= 3 * |fines|
    requires AllAllocated(fines, env.nextAddr)
    ensures |r.locations| == |fines|
    ensures AllCoarseUnmutated(g, fines) ==> CoarseElements(g.accuracyM, r.locations)
    ensures AllAllocated(r.locations, r.env.nextAddr)
    ensures AllUnmutated(g, fines) && Consistent(fines) ==>
              forall i :: 0 <= i < |fines| ==> CoarseOf(fines[i].fix, r.locations[i].fix)
    ensures Valid(r.fudger, r.env.nextAddr) && env.nextAddr <= r.env.nextAddr
    ensures r.fudger.accuracyM == g.accuracyM && r.fudger.epsilon == g.epsilon
    ensures BatchCacheCoarse(g) ==> BatchCacheCoarse(r.fudger)
    ensures NoiseDraws(r.env.draws)
    decreases |fines|
  {
    if fines == [] then
      Mapped(g, env, [])
    else
      var c := CreateCoarse(g, fines[0], nows[0], env, m);
      assert AllAllocated(fines[1..], c.env.nextAddr) by {
        forall j | 0 <= j < |fines[1..]| ensures fines[1..][j].addr < c.env.nextAddr {
          assert fines[1..][j] == fines[j + 1];
        }
      }
      UnmutatedCarriesOver(g, fines, nows[0], env, m);
      var rest := MapCoarse(c.fudger, fines[1..], nows[1..], c.env, m);
      PrependCoarse(g.accuracyM, fines, c.location, rest.locations, rest.env.nextAddr);
      Mapped(rest.fudger, rest.env, [c.location] + rest.locations)
  }

  /** One step of the mapping: the head is coarsened with the caller's instance and
      resources, the tail with what that call left. */
  lemma MapCoarseStep(g: Fudger, fines: seq<Location>, nows: seq<int>, env: Env, m: MathLib)
    requires |nows| == |fines| > 0
    requires Valid(g, env.nextAddr) && CosPositiveOffPoles(m)
    requires NoiseDraws(env.draws) && |env.draws| >= 3 * |fines|
    requires AllAllocated(fines, env.nextAddr)
    ensures var c := CreateCoarse(g, fines[0], nows[0], env, m);
            && AllAllocated(fines[1..], c.env.nextAddr)
            && NoiseDraws(c.env.draws) && |c.env.draws| >= 3 * |fines[1..]|
            && var rest := MapCoarse(c.fudger, fines[1..], nows[1..], c.env, m);
               MapCoarse(g, fines, nows, env, m) == Mapped(rest.fudger, rest.env, [c.location] + rest.locations)
  {
    var c := CreateCoarse(g, fines[0], nows[0], env, m);
    assert AllAllocated(fines[1..], c.env.nextAddr) by {
      forall j | 0 <= j < |fines[1..]| ensures fines[1..][j].addr < c.env.nextAddr {
        assert fines[1..][j] == fines[j + 1];
      }
    }
  }

  /** After mapping a non-empty list, the cached coarse object is the last element of
      the result, as after a single call on the last input. */
  lemma {:induction false} MapCoarseCachesLast(g: Fudger, fines: seq<Location>, nows: seq<int>, env: Env, m: MathLib)
    requires |nows| == |fines|
    requires Valid(g, env.nextAddr) && CosPositiveOffPoles(m)
    requires NoiseDraws(env.draws) && |env.draws| >= 3 * |fines|
    requires AllAllocated(fines, env.nextAddr)
    ensures var r := MapCoarse(g, fines, nows, env, m);
            |fines| > 0 ==> Holds(r.fudger.cachedCoarse, r.locations[|fines| - 1])
    ensures var r := MapCoarse(g, fines, nows, env, m);
            |fines| > 0 && AllCoarseUnmutated(g, fines) ==> r.fudger.cachedCoarse == Some(r.locations[|fines| - 1])
    decreases |fines|
  {
    if |fines| > 0 {
      var c := CreateCoarse(g, fines[0], nows[0], env, m);
      MapCoarseStep(g, fines, nows, env, m);
      UnmutatedCarriesOver(g, fines, nows[0], env, m);
      MapCoarseCachesLast(c.fudger, fines[1..], nows[1..], c.env, m);
    }
  }

  /** Every element misses the caches and no identity occurs twice in the list: each
      element will be coarsened afresh. */
  predicate AllMiss(g: Fudger, fines: seq<Location>) {
    && (forall i :: 0 <= i < |fines| ==> !Hit(g, fines[i]))
    && (forall i, j :: 0 <= i < j < |fines| ==> fines[i].addr != fines[j].addr)
  }

  /** The first n groups of three consecutive draws, in order. */
  function Triples(draws: seq<real>, n: nat): (ts: seq<(real, real, real)>)
    requires |draws| >= 3 * n
    ensures |ts| == n
    ensures forall i :: 0 <= i < n ==> ts[i] == (draws[3 * i], draws[3 * i + 1], draws[3 * i + 2])
    decreases n
  {
    if n == 0 then []
    else
      var rest := Triples(draws[3..], n - 1);
      assert forall i :: 0 < i < n ==> rest[i - 1] == (draws[3 * i], draws[3 * i + 1], draws[3 * i + 2]);
      [(draws[0], draws[1], draws[2])] + rest
  }

  /** The groups of 3n draws are the first group followed by the k = n - 1 groups after it. */
  lemma TriplesStep(draws: seq<real>, k: nat, n: nat)
    requires n == k + 1 && |draws| >= 3 * n
    ensures Triples(draws, n) == [(draws[0], draws[1], draws[2])] + Triples(draws[3..], k)
  {
  }

  /** After a miss on the head of a list of fresh, distinct objects, the rest of the
      list still misses: the new cached fine object is the head, and the new cached coarse
      object is newer than every element. */
  lemma MissCarriesOver(g: Fudger, fines: seq<Location>, now: int, env: Env, m: MathLib)
    requires |fines| > 0
    requires Valid(g, env.nextAddr) && CosPositiveOffPoles(m)
    requires NoiseDraws(env.draws) && |env.draws| >= 3
    requires AllAllocated(fines, env.nextAddr)
    requires AllMiss(g, fines)
    ensures var c := CreateCoarse(g, fines[0], now, env, m);
            AllAllocated(fines[1..], c.env.nextAddr) && AllMiss(c.fudger, fines[1..])
  {
    var c := CreateCoarse(g, fines[0], now, env, m);
    assert !Hit(g, fines[0]);
    forall j | 0 <= j < |fines[1..]| ensures fines[1..][j].addr < c.env.nextAddr && !Hit(c.fudger, fines[1..][j]) {
      assert fines[1..][j] == fines[j + 1];
    }
    forall i, j | 0 <= i < j < |fines[1..]| ensures fines[1..][i].addr != fines[1..][j].addr {
      assert fines[1..][i] == fines[i + 1] && fines[1..][j] == fines[j + 1];
    }
  }

  /** Mapping a list of fresh, distinct objects consumes three draws per element, from the
      front, and allocates one object per element. */
  lemma {:induction false} MissesConsumeInOrder(g: Fudger, fines: seq<Location>, nows: seq<int>, env: Env, m: MathLib)
    requires |nows| == |fines|
    requires Valid(g, env.nextAddr) && CosPositiveOffPoles(m)
    requires NoiseDraws(env.draws) && |env.draws| >= 3 * |fines|
    requires AllAllocated(fines, env.nextAddr)
    requires AllMiss(g, fines)
    ensures var r := MapCoarse(g, fines, nows, env, m);
            r.env.draws == env.draws[3 * |fines|..] && r.env.nextAddr == env.nextAddr + |fines|
    decreases |fines|
  {
    if |fines| > 0 {
      var c := CreateCoarse(g, fines[0], nows[0], env, m);
      MissCarriesOver(g, fines, nows[0], env, m);
      MapCoarseStep(g, fines, nows, env, m);
      MissesConsumeInOrder(c.fudger, fines[1..], nows[1..], c.env, m);
      assert !Hit(g, fines[0]) && c.env.draws == env.draws[3..];
      DropGroups(env.draws, |fines[1..]|, |fines|);
    }
  }

  /** y is the fix x perturbed with the group of draws t. */
  ghost predicate PerturbedBy(accuracyM: real, epsilon: real, t: (real, real, real), x: Fix, y: Fix, m: MathLib) {
    && 0.0 < t.0 < 1.0 && 0.0 < t.1 < 1.0 && epsilon > 0.0 && CosPositiveOffPoles(m)
    && y == Perturb(accuracyM, epsilon, x, t.0, t.1, t.2, m)
  }

  /** Mapping a list of fresh, distinct objects perturbs element i with the i-th group of
      three draws. */
  lemma {:induction false} MissesPerturbInOrder(g: Fudger, fines: seq<Location>, nows: seq<int>, env: Env, m: MathLib)
    requires |nows| == |fines|
    requires Valid(g, env.nextAddr) && CosPositiveOffPoles(m)
    requires NoiseDraws(env.draws) && |env.draws| >= 3 * |fines|
    requires AllAllocated(fines, env.nextAddr)
    requires AllMiss(g, fines)
    ensures var r := MapCoarse(g, fines, nows, env, m);
            var ts := Triples(env.draws, |fines|);
            forall i :: 0 <= i < |fines| ==>
              PerturbedBy(g.accuracyM, g.epsilon, ts[i], fines[i].fix, r.locations[i].fix, m)
    decreases |fines|
  {
    if |fines| > 0 {
      var c := CreateCoarse(g, fines[0], nows[0], env, m);
      MissCarriesOver(g, fines, nows[0], env, m);
      MapCoarseStep(g, fines, nows, env, m);
      MissesPerturbInOrder(c.fudger, fines[1..], nows[1..], c.env, m);
      var rest := MapCoarse(c.fudger, fines[1..], nows[1..], c.env, m);
      assert !Hit(g, fines[0]) && c.env.draws == env.draws[3..];
      TriplesStep(env.draws, |fines[1..]|, |fines|);
      var perturbed := (t: (real, real, real), x: Location, y: Location) =>
        PerturbedBy(g.accuracyM, g.epsilon, t, x.fix, y.fix, m);
      PrependRelated(perturbed, fines,
                     (env.draws[0], env.draws[1], env.draws[2]), Triples(env.draws[3..], |fines[1..]|),
                     c.location, rest.locations);
    }
  }

  /** A list of fresh, distinct objects is coarsened exactly as single calls on each
      element in turn would coarsen it: element i is input element i perturbed with draws
      3i, 3i + 1 and 3i + 2, and the mapping consumes three draws and allocates one object
      per element. */
  lemma MissesDrawInOrder(g: Fudger, fines: seq<Location>, nows: seq<int>, env: Env, m: MathLib)
    requires |nows| == |fines|
    requires Valid(g, env.nextAddr) && CosPositiveOffPoles(m)
    requires NoiseDraws(env.draws) && |env.draws| >= 3 * |fines|
    requires AllAllocated(fines, env.nextAddr)
    requires AllMiss(g, fines)
    ensures var r := MapCoarse(g, fines, nows, env, m);
            r.env.draws == env.draws[3 * |fines|..] && r.env.nextAddr == env.nextAddr + |fines|
    ensures var r := MapCoarse(g, fines, nows, env, m);
            forall i :: 0 <= i < |fines| ==>
              r.locations[i].fix
                == Perturb(g.accuracyM, g.epsilon, fines[i].fix,
                           env.draws[3 * i], env.draws[3 * i + 1], env.draws[3 * i + 2], m)
  {
    MissesConsumeInOrder(g, fines, nows, env, m);
    MissesPerturbInOrder(g, fines, nows, env, m);
    var r := MapCoarse(g, fines, nows, env, m);
    var ts := Triples(env.draws, |fines|);
    forall i | 0 <= i < |fines|
      ensures r.locations[i].fix
                == Perturb(g.accuracyM, g.epsilon, fines[i].fix,
                           env.draws[3 * i], env.draws[3 * i + 1], env.draws[3 * i + 2], m)
    {
      assert ts[i] == (env.draws[3 * i], env.draws[3 * i + 1], env.draws[3 * i + 2]);
      assert PerturbedBy(g.accuracyM, g.epsilon, ts[i], fines[i].fix, r.locations[i].fix, m);
    }
  }

  /** While every clock reading is before the timer, mapping neither restarts the timer
      nor drops the cached batches. */
  lemma {:induction false} MapCoarseBeforeTimer(g: Fudger, fines: seq<Location>, nows: seq<int>, env: Env, m: MathLib)
    requires |nows| == |fines|
    requires Valid(g, env.nextAddr) && CosPositiveOffPoles(m)
    requires NoiseDraws(env.draws) && |env.draws| >= 3 * |fines|
    requires AllAllocated(fines, env.nextAddr)
    requires forall i :: 0 <= i < |nows| ==> nows[i] < g.nextUpdateMs
    ensures var r := MapCoarse(g, fines, nows, env, m);
            && r.fudger.nextUpdateMs == g.nextUpdateMs
            && r.fudger.cachedFineResult == g.cachedFineResult
            && r.fudger.cachedCoarseResult == g.cachedCoarseResult
    decreases |fines|
  {
    if |fines| > 0 {
      var c := CreateCoarse(g, fines[0], nows[0], env, m);
      MapCoarseStep(g, fines, nows, env, m);
      forall i | 0 <= i < |nows[1..]| ensures nows[1..][i] < c.fudger.nextUpdateMs {
        assert nows[1..][i] == nows[i + 1];
      }
      MapCoarseBeforeTimer(c.fudger, fines[1..], nows[1..], c.env, m);
    }
  }

  /** o holds an object with x's identity. */
  predicate HoldsResult(o: Option<LocationResult>, x: LocationResult) {
    o.Some? && o.value.addr == x.addr
  }

  /** The input is, by identity, the cached fine or the cached coarse batch. */
  predicate BatchHit(g: Fudger, fine: LocationResult) {
    HoldsResult(g.cachedFineResult, fine) || HoldsResult(g.cachedCoarseResult, fine)
  }

  /** If the input is the cached coarse batch, it still has the elements it was
      returned with. */
  predicate CoarseResultUnmutated(g: Fudger, fine: LocationResult) {
    HoldsResult(g.cachedCoarseResult, fine) ==> g.cachedCoarseResult.value == fine
  }

  /** A cached batch with the input's identity also has the input's contents. */
  predicate ResultUnmutated(g: Fudger, fine: LocationResult) {
    && (HoldsResult(g.cachedFineResult, fine) ==> g.cachedFineResult.value == fine)
    && CoarseResultUnmutated(g, fine)
  }

  /** A batch call's results. */
  datatype CoarseBatch = CoarseBatch(fudger: Fudger, env: Env, result: LocationResult)

  /** createCoarse(LocationResult). A hit returns the cached coarse batch without reading
      the clock or the random generator: the input itself when it is that batch, the
      batch as it was returned when the input is the cached fine batch. A miss maps the
      single-fix form over the elements in order, wraps them in a new result object and
      caches the (input, result) pair. */
  function CreateCoarseBatch(g: Fudger, fine: LocationResult, nows: seq<int>, env: Env, m: MathLib): (r: CoarseBatch)
    requires |nows| == |fine.locations|
    requires Valid(g, env.nextAddr) && fine.addr < env.nextAddr
    requires AllAllocated(fine.locations, env.nextAddr)
    requires CosPositiveOffPoles(m)
    requires NoiseDraws(env.draws)
    requires !BatchHit(g, fine) ==> |env.draws| >= 3 * |fine.locations|
    ensures Valid(r.fudger, r.env.nextAddr)
    ensures HoldsResult(r.fudger.cachedCoarseResult, r.result)
    ensures CoarseResultUnmutated(g, fine) ==> r.fudger.cachedCoarseResult == Some(r.result)
    ensures BatchCacheCoarse(g) && CoarseResultUnmutated(g, fine) && AllCoarseUnmutated(g, fine.locations) ==>
              CoarseElements(g.accuracyM, r.result.locations) && BatchCacheCoarse(r.fudger)
    ensures ResultUnmutated(g, fine) ==> |r.result.locations| == |fine.locations|
    ensures HoldsResult(g.cachedCoarseResult, fine) ==> r == CoarseBatch(g, env, fine)
    ensures HoldsResult(g.cachedFineResult, fine) && !HoldsResult(g.cachedCoarseResult, fine) ==>
              r == CoarseBatch(g, env, g.cachedCoarseResult.value)
    ensures !BatchHit(g, fine) ==>
              && r.result.addr != fine.addr
              && r.fudger.cachedFineResult == Some(fine)
              && |r.result.locations| == |fine.locations|
              && (AllUnmutated(g, fine.locations) && Consistent(fine.locations) ==>
                    forall i :: 0 <= i < |fine.locations| ==>
                      CoarseOf(fine.locations[i].fix, r.result.locations[i].fix))
    ensures r.fudger.accuracyM == g.accuracyM && r.fudger.epsilon == g.epsilon
    ensures NoiseDraws(r.env.draws) && env.nextAddr <= r.env.nextAddr
  {
    if HoldsResult(g.cachedCoarseResult, fine) then
      CoarseBatch(g, env, fine)
    else if HoldsResult(g.cachedFineResult, fine) then
      CoarseBatch(g, env, g.cachedCoarseResult.value)
    else
      var mapped := MapCoarse(g, fine.locations, nows, env, m);
      var result := LocationResult(mapped.env.nextAddr, mapped.locations);
      CoarseBatch(mapped.fudger.(cachedFineResult := Some(fine), cachedCoarseResult := Some(result)),
                  mapped.env.(nextAddr := mapped.env.nextAddr + 1),
                  result)
  }

  /** A batch that misses the batch caches behaves as the single-fix form applied to its
      elements in turn: afterwards the single-fix cache holds the last coarse element;
      while the clock is before the timer, the timer is not restarted; and when every
      element is a fresh, distinct object, element i is perturbed with draws 3i, 3i + 1
      and 3i + 2, three draws are consumed per element, and the result object is
      allocated after its elements. */
  lemma BatchMissFollowsSingleFixes(g: Fudger, fine: LocationResult, nows: seq<int>, env: Env, m: MathLib)
    requires |nows| == |fine.locations|
    requires Valid(g, env.nextAddr) && fine.addr < env.nextAddr
    requires AllAllocated(fine.locations, env.nextAddr)
    requires CosPositiveOffPoles(m)
    requires NoiseDraws(env.draws)
    requires !BatchHit(g, fine) && |env.draws| >= 3 * |fine.locations|
    ensures var r := CreateCoarseBatch(g, fine, nows, env, m);
            |fine.locations| > 0 ==> Holds(r.fudger.cachedCoarse, r.result.locations[|fine.locations| - 1])
    ensures var r := CreateCoarseBatch(g, fine, nows, env, m);
            |fine.locations| > 0 && AllCoarseUnmutated(g, fine.locations) ==>
              r.fudger.cachedCoarse == Some(r.result.locations[|fine.locations| - 1])
    ensures var r := CreateCoarseBatch(g, fine, nows, env, m);
            (forall i :: 0 <= i < |nows| ==> nows[i] < g.nextUpdateMs) ==> r.fudger.nextUpdateMs == g.nextUpdateMs
    ensures var r := CreateCoarseBatch(g, fine, nows, env, m);
            AllMiss(g, fine.locations) ==>
              && r.env.draws == env.draws[3 * |fine.locations|..]
              && r.result.addr == env.nextAddr + |fine.locations|
              && forall i :: 0 <= i < |fine.locations| ==>
                   r.result.locations[i].fix
                     == Perturb(g.accuracyM, g.epsilon, fine.locations[i].fix,
                                env.draws[3 * i], env.draws[3 * i + 1], env.draws[3 * i + 2], m)
  {
    var mapped := MapCoarse(g, fine.locations, nows, env, m);
    var r := CreateCoarseBatch(g, fine, nows, env, m);
    assert r.result.locations == mapped.locations && r.env.draws == mapped.env.draws;
    assert r.result.addr == mapped.env.nextAddr;
    assert r.fudger == mapped.fudger.(cachedFineResult := Some(fine), cachedCoarseResult := Some(r.result));
    assert |fine.locations| > 0 ==>
             && Holds(mapped.fudger.cachedCoarse, mapped.locations[|fine.locations| - 1])
             && (AllCoarseUnmutated(g, fine.locations) ==>
                   mapped.fudger.cachedCoarse == Some(mapped.locations[|fine.locations| - 1])) by {
      MapCoarseCachesLast(g, fine.locations, nows, env, m);
    }
    assert (forall i :: 0 <= i < |nows| ==> nows[i] < g.nextUpdateMs) ==>
             mapped.fudger.nextUpdateMs == g.nextUpdateMs by {
      if forall i :: 0 <= i < |nows| ==> nows[i] < g.nextUpdateMs {
        MapCoarseBeforeTimer(g, fine.locations, nows, env, m);
      }
    }
    if AllMiss(g, fine.locations) {
      MissesDrawInOrder(g, fine.locations, nows, env, m);
    }
  }

  /** Coarsening a coarse batch again returns the very same object and changes nothing,
      at any clock readings. */
  lemma CoarseningBatchTwiceReturnsSameObject(
    g: Fudger, fine: LocationResult, nows: seq<int>, later: seq<int>, env: Env, m: MathLib)
    requires |nows| == |fine.locations|
    requires Valid(g, env.nextAddr) && fine.addr < env.nextAddr
    requires AllAllocated(fine.locations, env.nextAddr)
    requires CosPositiveOffPoles(m)
    requires NoiseDraws(env.draws)
    requires !BatchHit(g, fine) ==> |env.draws| >= 3 * |fine.locations|
    requires |later| == |CreateCoarseBatch(g, fine, nows, env, m).result.locations|
    ensures var r := CreateCoarseBatch(g, fine, nows, env, m);
            CreateCoarseBatch(r.fudger, r.result, later, r.env, m) == r
  {
    var r := CreateCoarseBatch(g, fine, nows, env, m);
    assert HoldsResult(r.fudger.cachedCoarseResult, r.result);
    assert r.result.addr < r.env.nextAddr;
  }
}

=== FILE: obfuscation.dfy ===
/** The shared obfuscation interface: a closed choice between the two strategies, each
    answering createCoarse for one fix and for a batch of fixes. */
module Obfuscation {
  import opened Geo
  import opened Fixes
  import DistanceFudger
  import GeoDpFudger

  /** A strategy instance. */
  datatype Strategy =
    | Distance(distance: DistanceFudger.Fudger)
    | GeoDp(geoDp: GeoDpFudger.Fudger)

  /** Everything a call can read or change: the distance strategy's static offsets
      (shared by every instance of it), one strategy instance, and the process
      resources. */
  datatype Process = Process(statics: DistanceFudger.Statics, strategy: Strategy, env: Env)

  /** What both strategies keep from call to call. The distance strategy takes any
      values nextDouble() can return; the noise strategy reads its own generator in
      groups of three whose two radius draws are non-zero. */
  predicate Valid(p: Process) {
    && DistanceFudger.StaticsValid(p.statics)
    && match p.strategy
       case Distance(f) => f.distanceKm >= 1 && UnitDraws(p.env.draws)
       case GeoDp(g) => GeoDpFudger.Valid(g, p.env.nextAddr) && NoiseDraws(p.env.draws)
  }

  /** The call computes its answer from the input's contents: always for the distance
      strategy; for the noise strategy when the caller has not mutated an object it
      handed over before. */
  predicate Recomputes(p: Process, fine: Location) {
    match p.strategy
    case Distance(_) => true
    case GeoDp(g) => GeoDpFudger.Unmutated(g, fine)
  }

  /** The batch call computes its answer from the input's elements: always for the
      distance strategy; for the noise strategy when the batch is not a cached one and
      its elements are neither mutated cached objects nor inconsistent among
      themselves. */
  predicate RecomputesBatch(p: Process, fine: LocationResult) {
    match p.strategy
    case Distance(_) => true
    case GeoDp(g) =>
      && !GeoDpFudger.BatchHit(g, fine)
      && GeoDpFudger.AllUnmutated(g, fine.locations)
      && GeoDpFudger.Consistent(fine.locations)
  }

  /** The single-fix answer is a coarse fix: always for the distance strategy; for the
      noise strategy unless the input is the cached coarse object and the caller has
      written into it, since that object is handed back as it is. */
  predicate Sanitizes(p: Process, fine: Location) {
    match p.strategy
    case Distance(_) => true
    case GeoDp(g) => GeoDpFudger.CoarseUnmutated(g, fine)
  }

  /** The noise strategy's cached coarse batch holds only coarse fixes. */
  predicate CachesCoarse(p: Process) {
    match p.strategy
    case Distance(_) => true
    case GeoDp(g) => GeoDpFudger.BatchCacheCoarse(g)
  }

  /** Every element of the batch answer is a coarse fix: always for the distance
      strategy; for the noise strategy when its cached coarse batch is coarse and no
      cached coarse object or batch the caller has written into is handed back. */
  predicate SanitizesBatch(p: Process, fine: LocationResult) {
    match p.strategy
    case Distance(_) => true
    case GeoDp(g) =>
      && GeoDpFudger.BatchCacheCoarse(g)
      && GeoDpFudger.CoarseResultUnmutated(g, fine)
      && GeoDpFudger.AllCoarseUnmutated(g, fine.locations)
  }

  /** createCoarse(Location) through the interface: whichever strategy answers, the
      result carries no bearing, speed, altitude or extras and has canonical coordinates
      unless a mutated coarse object is handed back, and is a coarse version of the input
      whenever it is computed from it; the strategy stays the same kind and only the
      distance strategy touches the shared offsets. */
  function CreateCoarse(p: Process, fine: Location, now: int, m: MathLib): (r: (Process, Location))
    requires Valid(p) && CosPositiveOffPoles(m)
    requires fine.addr < p.env.nextAddr && |p.env.draws| >= 3
    ensures Valid(r.0)
    ensures r.0.strategy.Distance? == p.strategy.Distance?
    ensures Sanitizes(p, fine) ==> Sanitized(r.1.fix)
    ensures Recomputes(p, fine) ==> CoarseOf(fine.fix, r.1.fix)
    ensures CachesCoarse(p) ==> CachesCoarse(r.0)
    ensures p.strategy.GeoDp? ==> r.0.statics == p.statics
  {
    match p.strategy
    case Distance(f) =>
      var c := DistanceFudger.CreateCoarse(f, p.statics, fine, now, p.env, m);
      (Process(c.statics, Distance(c.fudger), c.env), c.location)
    case GeoDp(g) =>
      var c := GeoDpFudger.CreateCoarse(g, fine, now, p.env, m);
      (Process(p.statics, GeoDp(c.fudger), c.env), c.location)
  }

  /** createCoarse(LocationResult) through the interface: every element of the result is
      a coarse fix unless mutated cached coarse objects are handed back; when the answer
      is computed from the input it has the input's length and element i is a coarse
      version of input element i. */
  function CreateCoarseBatch(
    p: Process, fine: LocationResult, nows: seq<int>, m: MathLib): (r: (Process, LocationResult))
    requires |nows| == |fine.locations|
    requires Valid(p) && CosPositiveOffPoles(m)
    requires fine.addr < p.env.nextAddr && AllAllocated(fine.locations, p.env.nextAddr)
    requires |p.env.draws| >= 3 * |fine.locations|
    ensures Valid(r.0)
    ensures r.0.strategy.Distance? == p.strategy.Distance?
    ensures SanitizesBatch(p, fine) ==>
              && CachesCoarse(r.0)
              && forall i :: 0 <= i < |r.1.locations| ==> Sanitized(r.1.locations[i].fix)
    ensures RecomputesBatch(p, fine) ==>
              && |r.1.locations| == |fine.locations|
              && forall i :: 0 <= i < |fine.locations| ==> CoarseOf(fine.locations[i].fix, r.1.locations[i].fix)
    ensures p.strategy.GeoDp? ==> r.0.statics == p.statics
  {
    match p.strategy
    case Distance(f) =>
      var c := DistanceFudger.CreateCoarseBatch(f, p.statics, fine, nows, p.env, m);
      (Process(c.statics, Distance(c.fudger), c.env), c.result)
    case GeoDp(g) =>
      var c := GeoDpFudger.CreateCoarseBatch(g, fine, nows, p.env, m);
      (Process(p.statics, GeoDp(c.fudger), c.env), c.result)
  }
}
